=== FILE: README.md ===
# vimiv command history, command preprocessing and thumbnail cache in Dafny

This project models three pieces of the vimiv image viewer:

- **Command history** (`vimiv/commands/history.py`). This is the list of commands run so far, newest first. It is capped at `max_items`. While the user cycles through it with "next"/"prev", the text being typed is stored at the front. It is saved to and read from a file with one command per line.
- **Command preprocessing** (`vimiv/commands/runners.py`):
  - Splitting a command line into a count prefix, a command name and arguments.
  - Expanding the `%` (current path) and `*` (path list) wildcards unless they are escaped by a backslash.
  - Replacing an alias.
  - Deriving a shell command's text and its "pipe" flag from a trailing `|`.
- **Thumbnail cache** (`vimiv/utils/thumbnail_manager.py`). The cache follows the freedesktop.org Thumbnail Managing Standard:
  - Where a thumbnail lives: the MD5 of the `file://` URI of the absolute path, in the `large` or `normal` directory.
  - What it records: URI, modification time, size, width, height and software.
  - When a stored thumbnail is reused and when it is rebuilt.
  - What a batch of requests emits.

Python behaviour is modelled explicitly:
- `%` with a possibly negative left operand, and list slices with a negative bound (a negative `max_items`).
- Exceptions raised part-way through a mutation. `History.Step` keeps the state reached before the exception.
- The exact character set of `str.isspace`.
- The universal-newline translation `readlines` does in text mode.
- The left-to-right, non-overlapping scan of `str.replace` and of `re.sub` with the lookbehind `(?<!\\)`.
- CPython's `posixpath.expanduser`, `join`, `normpath` and `abspath`, in module `PosixPath`.

The surroundings become parameters:
- The MD5 digest, `QImage.scaled` and the sources' status, readability and decoded image are fields of `Thumbnails.World`.
- The cache directory is a map from file path to `Thumbnails.CacheFile`.
- The alias table, the current path and the path list are arguments of `Runners`.
- The history file is an optional string, absent when the file does not exist.

Files:
- `wrappers.dfy`: `Option` and `Result`.
- `pystr.dfy`: Python string operations.
- `decimal.dfy`: `str(int)`.
- `posixpath.dfy`: `posixpath`.
- `history.dfy`, `history_file.dfy`: the history.
- `runners.dfy`: the command preprocessing.
- `thumbnails.dfy`: the thumbnail cache.

Behaviour of the code worth knowing:
- A source the creator may not read gives `False` (`Thumbnails.NoIcon`), not the failure icon (`thumbnail_manager.py:144-145`).
- A source that `QImageReader.canRead()` accepts but that then fails to decode yields a null image. Saving it fails, and `os.replace` installs the empty temporary file. That file has no `Thumb::MTime`, so every later request rebuilds it (`thumbnail_manager.py:148-165`, `:195-200`).
- The URI uses `os.path.abspath`, which does not resolve symbolic links. Only paths with the same absolute form share a cache file, not every alias of the same file.
- A source that vanished while its thumbnail still exists makes `os.path.getmtime` raise (`thumbnail_manager.py:195`). The creator then emits nothing; it does not report a failure placeholder.
- The failure directory is computed but never written to. The model stores nothing there.

## Model

| member | source | states |
|---|---|---|
| History.New | vimiv/commands/history.py:50-55 | the history holds the given commands and the given bound, and is already in the state `reset` leaves |
| History.Insert | vimiv/commands/history.py:75-85 | the result is a prefix of the command followed by the old list, so a nonempty result has the command in front; its length is `min(len+1, max_items)` for `max_items >= 0` and `max(len+1+max_items, 0)` for a negative one; index and flag are untouched |
| History.RemoveFirst | vimiv/commands/history.py:64-65 | the list loses exactly the first occurrence of the command and keeps the order of everything else |
| History.Reset | vimiv/commands/history.py:68-73 | the index becomes 0; the stored text is dropped exactly when the flag was set; it raises `IndexError` exactly when the flag is set and the list is empty, and then the list and the flag stay as they were |
| History.Update | vimiv/commands/history.py:57-66 | it raises exactly when `reset` does, leaving the state `reset` left; otherwise the flag is cleared and the list is a prefix of the command followed by the reset list without the command's first occurrence, cut to `max_items` (with Python's rule for a negative bound); the command is in front when `max_items >= 1`, and occurs no more often than before, and at most once when it was absent |
| History.UpdateStaysStuck | vimiv/commands/history.py:63-73 | after `update` raised on a set flag with an empty list, every later `update` raises `IndexError` again and leaves the history as it is |
| History.UpdateKeepsDistinct | vimiv/commands/history.py:57-66 | a history without duplicates stays without duplicates, and with `max_items >= 1` the updated command occurs exactly once |
| History.Cycle | vimiv/commands/history.py:87-107 | an empty history returns "" unchanged; the typed text is inserted only on the first call; it raises `ZeroDivisionError` exactly when that insert empties the list; the returned command is the one under the new, in-range cursor |
| History.CycleMovesCursor | vimiv/commands/history.py:103-106 | the cursor moves by +1 for "next" and -1 otherwise, modulo the list length |
| History.CycleStarted | vimiv/commands/history.py:100-107 | once cycling has started, a step keeps the list and the flag and only moves the cursor |
| History.CycleNextPrev | vimiv/commands/history.py:100-107 | once cycling has started, "prev" after "next" restores the history exactly and shows the command under the cursor again |
| History.CycleInsertsOnce | vimiv/commands/history.py:100-102 | a whole cycling session leaves the list its first step produced: the typed text is stored once |
| History.NeverRaises | vimiv/commands/history.py:50-107 | from a state reachable with `max_items >= 1`, none of reset, update and cycle raises, and each leads to such a state again |
| History.NewIsSound | vimiv/commands/history.py:50-55 | a freshly constructed history with `max_items >= 1` is such a state |
| HistoryFile.Write | vimiv/commands/history.py:26-35 | the file is empty exactly when there are no commands, and otherwise ends in a newline |
| HistoryFile.Read | vimiv/commands/history.py:10-23 | a missing file reads as no commands and is created empty; an existing file is left as it is |
| HistoryFile.ReadWriteRoundTrip | vimiv/commands/history.py:10-35 | reading back what `write` wrote gives the same commands, for commands without line breaks |
| HistoryFile.WriteReadRoundTrip | vimiv/commands/history.py:10-35 | writing what was read reproduces a file that is empty or ends in a newline and holds no carriage return |
| HistoryFile.CarriageReturnSplits | vimiv/commands/history.py:20-35 | a written command made of two nonempty one-line parts joined by a carriage return is read back as those two commands, because text mode reads `\r` as a line break |
| HistoryFile.TranslateIdentity | vimiv/commands/history.py:20-21 | text without carriage returns reads unchanged |
| Runners.BlankIff | vimiv/commands/runners.py:71-74 | splitting the stripped text yields no token exactly when the text is all whitespace |
| Runners.SplitCount | vimiv/commands/runners.py:76-78 | the token splits into a run of leading digits and a name that does not start with a digit |
| Runners.Parse | vimiv/commands/runners.py:61-80 | it fails exactly for blank text (`split[0]` raises); otherwise the count and name make up the first token, the count is all digits, the name has no leading digit, and the args are the remaining tokens |
| Runners.Substitute | vimiv/commands/runners.py:93 | substituting the wildcard by itself changes nothing |
| Runners.SubstituteAt | vimiv/commands/runners.py:93 | at an occurrence of the wildcard, one preceded by a backslash is kept and any other is replaced |
| Runners.SubstituteLeavesNoUnescaped | vimiv/commands/runners.py:93-96 | after a substitution whose replacement lacks the wildcard, every remaining wildcard is preceded by a backslash |
| Runners.SubstituteAbsent | vimiv/commands/runners.py:91-96 | text without the wildcard is left unchanged |
| Runners.ExpandWildcards | vimiv/commands/runners.py:83-97 | text without `%` and `*` is returned unchanged |
| Runners.ExpandIsTwoPasses | vimiv/commands/runners.py:91-96 | the presence checks change nothing: the result is always the `%` substitution followed by the `*` substitution |
| Runners.PercentBeforeStar | vimiv/commands/runners.py:91-96 | a `*` inside the current path is itself expanded by the second pass |
| Runners.PercentBeforeStarExample | vimiv/commands/runners.py:91-96 | `%` with current path `a*b` and paths `x`, `y` becomes `ax yb` |
| Runners.Alias | vimiv/commands/runners.py:178-187 | it fails exactly for blank text (`split()[0]` raises); a first word that is not an alias leaves the text unchanged |
| Runners.AliasExpandsFirstWord | vimiv/commands/runners.py:184-186 | a text of indentation, an alias, then whitespace or nothing becomes indentation + expansion + the rest with every further occurrence of the alias replaced too |
| Runners.UpdateCommand | vimiv/commands/runners.py:24-31 | it fails exactly for blank text; text with no alias and no wildcard is unchanged |
| Runners.UpdateExpandsAliasFirst | vimiv/commands/runners.py:24-31 | for a text starting with an alias, the result is the wildcard expansion of the alias-replaced text, so wildcards inside the expansion are expanded too |
| Runners.NewShellCommand | vimiv/commands/runners.py:156-160 | it pipes exactly when the text ends in a bar character; the command has no surrounding whitespace and is no longer than the input |
| Runners.ShellCommandParts | vimiv/commands/runners.py:158-160 | text made of whitespace, a body, whitespace and bars gives exactly that body, and pipes exactly when there are bars |
| Runners.ShellCommandTrailingSpace | vimiv/commands/runners.py:158-160 | `ls`, space, bar, space: a text ending in a space does not pipe and keeps its bar |
| PyStr.StripCharacterization | vimiv/commands/runners.py:71 | `strip()` returns exactly the part between leading and trailing whitespace |
| PyStr.StripEmptyIff | vimiv/commands/runners.py:71 | `strip()` is empty exactly when the text is all whitespace |
| PyStr.WordsShape | vimiv/commands/runners.py:184 | every word of `split()` is nonempty and holds no whitespace |
| PyStr.WordsEmptyIff | vimiv/commands/runners.py:184 | `split()` has no words exactly when the text is all separators |
| PyStr.FirstWordIsTaken | vimiv/commands/runners.py:184 | the first word of `split()` is the maximal non-separator run after leading separators |
| PyStr.FirstWordOf | vimiv/commands/runners.py:184 | after leading whitespace, a run of non-whitespace ended by whitespace or the end is the first word of `split()` |
| PyStr.ReplaceIsSplitJoin | vimiv/commands/runners.py:186 | `replace` equals splitting on the pattern and joining with the replacement |
| PyStr.ReplaceAbsent | vimiv/commands/runners.py:186 | with no occurrence of the pattern, `replace` changes nothing |
| PyStr.ReplaceSelf | vimiv/commands/runners.py:186 | replacing a pattern by itself changes nothing |
| Decimal.IntRoundTrip | vimiv/utils/thumbnail_manager.py:179-180 | the decimal text of an integer parses back to it |
| Decimal.IntToStringInjective | vimiv/utils/thumbnail_manager.py:195-198 | two modification times have equal text exactly when they are equal |
| PosixPath.SplitIsSplitOn | vimiv/utils/thumbnail_manager.py:124 | the component split inside `normpath` is `str.split` with the separator `/` |
| PosixPath.NormPathIdempotent | vimiv/utils/thumbnail_manager.py:124 | `normpath` of an absolute path is absolute and normalising again changes nothing |
| PosixPath.AbsPathIsAbs | vimiv/utils/thumbnail_manager.py:124 | `abspath` always yields an absolute path |
| PosixPath.CanonicalIdempotent | vimiv/utils/thumbnail_manager.py:124 | expanding and making absolute a second time changes nothing |
| Thumbnails.NewManager | vimiv/utils/thumbnail_manager.py:48-56 | the tier directory is `<cache>/thumbnails/large` or `/normal`; the failure directory is `<cache>/thumbnails/fail/vimiv-<version>` |
| Thumbnails.DirectoriesDiffer | vimiv/utils/thumbnail_manager.py:52-56 | the large, normal and failure directories are pairwise different |
| Thumbnails.SizeBound | vimiv/utils/thumbnail_manager.py:146 | the bound is 256 exactly for large thumbnails and 128 otherwise |
| Thumbnails.SourceUri | vimiv/utils/thumbnail_manager.py:122-124 | every source URI starts with `file://` |
| Thumbnails.SourceUriIsAbsolute | vimiv/utils/thumbnail_manager.py:122-124 | every source URI starts with `file:///` |
| Thumbnails.ThumbnailFilename | vimiv/utils/thumbnail_manager.py:126-128 | the file name carries the `.png` extension |
| Thumbnails.ThumbnailPath | vimiv/utils/thumbnail_manager.py:118-120 | the location ends in the thumbnail's file name |
| Thumbnails.SameFileForSameAbsolutePath | vimiv/utils/thumbnail_manager.py:118-128 | paths with the same expanded absolute form share one cache file; a path and its absolute form do |
| Thumbnails.Attributes | vimiv/utils/thumbnail_manager.py:168-184 | exactly the six fields are set, with the URI, the modification time and the size as decimal text |
| Thumbnails.Create | vimiv/utils/thumbnail_manager.py:134-166 | an unreadable source gives `False` and an undecodable one the failure icon, both writing nothing; a raised stat writes nothing; every other file keeps its contents; for a readable, decodable, existing source the file at the location holds the scaled image and that image is returned |
| Thumbnails.MaybeRecreate | vimiv/utils/thumbnail_manager.py:186-200 | it raises exactly when the source has vanished; a stored file whose time field matches is returned unchanged; no other file is touched and no file is added or removed |
| Thumbnails.Run | vimiv/utils/thumbnail_manager.py:109-116 | nothing is emitted exactly when the source has vanished and its stat is reached; what is emitted carries the creator's index; only the creator's own cache file can change |
| Thumbnails.UnreadableWritesNothing | vimiv/utils/thumbnail_manager.py:143-145 | a source that may not be read never changes the cache |
| Thumbnails.UndecodableWritesNothing | vimiv/utils/thumbnail_manager.py:147-166 | an undecodable source never changes the cache and, without a stored file, yields the failure icon |
| Thumbnails.BuildStoresOneFile | vimiv/utils/thumbnail_manager.py:146-165 | a build adds exactly one file holding the scaled image; a non-null image carries the six fields, including the current modification time and size, and a null one no fields; it emits that image |
| Thumbnails.FreshFileIsHit | vimiv/utils/thumbnail_manager.py:195-199 | a stored file whose time field matches the source is returned and nothing is written |
| Thumbnails.StaleFileIsRebuilt | vimiv/utils/thumbnail_manager.py:186-200 | a stored file whose time field is any text other than the source's current time is treated like a missing one: same emission, same write, or no change when the build fails |
| Thumbnails.RunIdempotent | vimiv/utils/thumbnail_manager.py:109-200 | running a creator again on the cache it left emits the same and leaves the cache as it was; a null thumbnail has no time field, so it is rebuilt into the same empty file |
| Thumbnails.StartCreators | vimiv/utils/thumbnail_manager.py:84-88 | one creator per path, in order, carrying its position |
| Thumbnails.ScheduleEmitsInOrder | vimiv/utils/thumbnail_manager.py:84-116 | when every source exists, every scheduled creator emits once, in schedule order, with its own index |
| Thumbnails.BatchEmitsEachIndexOnce | vimiv/utils/thumbnail_manager.py:84-116 | in any order the pool may choose, a batch of existing sources emits each index once and no index outside the batch |
| Thumbnails.UnreadableBatchWritesNothing | vimiv/utils/thumbnail_manager.py:143-145 | a batch of unreadable sources leaves the cache as it was |
| Thumbnails.BatchWritesOnlyItsFiles | vimiv/utils/thumbnail_manager.py:109-165 | a batch adds, removes or changes no file outside its own paths' cache files |

## Left out

- `command()` dispatch (`runners.py:34-58`): the lookup in the command registry and the logging are outside this model. Only `_parse`, which it calls, is modelled.
- `ExternalRunner` and `ShellCommandRunnable.run`: running the shell, reading its output and opening the paths found there are process I/O. Only the text and pipe flag derived in `__init__` are modelled.
- `ThumbnailManager.create_thumbnails_async`: clearing and starting the thread pool is concurrency. A batch is modelled as the creators running one after another in an arbitrary order (`Thumbnails.RunSchedule`). Interleaving inside a creator is not modelled, so neither is the race between its existence check and its write.
- The temporary file, `chmod` and `os.replace` in `_create_thumbnail` appear as one atomic update of the cache map. A failing write (disk full, missing directory) is not modelled.
- MD5, image decoding and scaling are parameters of `Thumbnails.World`. The model proves nothing about their values.
- `int(os.path.getmtime(...))` truncates a float. The model receives the resulting integer.
- The user's cache and data directories (`xdg`) and `vimiv.__version__` are parameters.
- Runners.Parse: `shlex.split` is modelled as splitting on shlex's whitespace (space, tab, carriage return, newline) without quotes or backslash escapes. A quoted argument is therefore not modelled, and neither is the error on an unbalanced quote.
- Runners.SplitCount: `str.isdigit` is modelled for the ASCII digits only. Other Unicode digits count as name characters.
- Runners.ExpandWildcards: the current path and the joined path list are required to contain no backslash. `re.sub` processes escapes in its replacement string, and that escape processing is not modelled.
- Runners.Alias: the alias table is the map for the current mode. Looking it up per mode is outside this model.
- Thumbnails.Run: for a source it may not read, the creator emits `False` on a signal declared with the types `(int, QIcon)`. The model assumes that emission goes through and carries `Thumbnails.NoIcon`. Whether the Qt bindings accept the `bool` is outside the source files; if they reject it, the emit raises and nothing is emitted for that index.
- Thumbnails.Run: paths are sequences of Unicode scalar values. A file name that is not valid UTF-8 reaches Python with surrogate escapes, and `bytes(uri, "UTF-8")` then raises `UnicodeEncodeError` before the existence check, so that creator emits nothing; that raise is not modelled.
- HistoryFile.Read: file creation is reported as the file content after the read, not as a side effect. Encoding errors are not modelled.

=== FILE: decimal.dfy ===
/** Python's `str(int)`: the decimal text of an integer, and its inverse. */
module Decimal {

  predicate IsDigit(c: char) {
    '0' <= c <= '9'
  }

  function DigitChar(d: nat): (c: char)
    requires d < 10
    ensures IsDigit(c)
  {
    (48 + d) as char
  }

  function DigitValue(c: char): (d: nat)
    requires IsDigit(c)
    ensures d < 10
  {
    c as int - 48
  }

  /** `str(n)` for a non-negative `n`: no sign, at least one digit. */
  function NatToString(n: nat): (r: string)
    ensures |r| > 0 && r[0] != '-'
    ensures forall i :: 0 <= i < |r| ==> IsDigit(r[i])
    decreases n
  {
    if n < 10 then [DigitChar(n)] else NatToString(n / 10) + [DigitChar(n % 10)]
  }

  /** `str(n)`: a minus sign before the digits of a negative number. */
  function IntToString(n: int): (r: string)
    ensures |r| > 0
  {
    if n < 0 then "-" + NatToString(-n) else NatToString(n)
  }

  /** The value of a run of decimal digits, most significant first. */
  function DigitsValue(s: string): nat
    requires forall i :: 0 <= i < |s| ==> IsDigit(s[i])
  {
    if |s| == 0 then 0 else DigitsValue(s[..|s| - 1]) * 10 + DigitValue(s[|s| - 1])
  }

  /** `int(s)` for the texts `IntToString` produces. */
  function ParseInt(s: string): int
    requires |s| > 0
    requires forall i :: 1 <= i < |s| ==> IsDigit(s[i])
    requires s[0] == '-' || IsDigit(s[0])
  {
    if s[0] == '-' then 0 - DigitsValue(s[1..]) as int else DigitsValue(s)
  }

  lemma {:induction false} NatRoundTrip(n: nat)
    ensures DigitsValue(NatToString(n)) == n
    decreases n
  {
    if n >= 10 {
      var r := NatToString(n);
      NatRoundTrip(n / 10);
      assert r[..|r| - 1] == NatToString(n / 10);
      assert DigitValue(r[|r| - 1]) == n % 10;
    }
  }

  /** `int(str(n)) == n`. */
  lemma IntRoundTrip(n: int)
    ensures ParseInt(IntToString(n)) == n
  {
    if n < 0 {
      assert IntToString(n)[1..] == NatToString(-n);
      NatRoundTrip(-n);
    } else {
      NatRoundTrip(n);
    }
  }

  /** Distinct integers have distinct decimal texts, so comparing `str(a) == str(b)`
      compares the integers. */
  lemma IntToStringInjective(a: int, b: int)
    ensures IntToString(a) == IntToString(b) <==> a == b
  {
    if IntToString(a) == IntToString(b) {
      IntRoundTrip(a);
      IntRoundTrip(b);
    }
  }
}

=== FILE: history.dfy ===
/** The command-line history of vimiv/commands/history.py: a most-recent-first list of
    commands with a cycling cursor and a flag telling whether the text typed before
    cycling started is stored, temporarily, at its front. */
module History {

  /** The state of a `History` object: its list, `_index`, `_temporary_element_stored`
      and `_max_items`. */
  datatype History = History(items: seq<string>, index: int, tempStored: bool, maxItems: int)

  /** The exceptions the operations can raise: `list.pop(0)` on an empty list and
      `% len(self)` on an empty list. */
  datatype PyError = IndexError | ZeroDivisionError

  /** Python mutates the object before an exception escapes, so a raised error still
      carries the state reached at that point. */
  datatype Step<T> = Returned(state: History, value: T) | Raised(state: History, error: PyError)

  function Min(a: int, b: int): int { if a <= b then a else b }

  function Max(a: int, b: int): int { if a >= b then a else b }

  /** `s[:k]` with Python's slicing rules (a negative `k` counts from the end). */
  function Take<T>(s: seq<T>, k: int): (r: seq<T>)
    ensures r <= s
    ensures k >= 0 ==> |r| == Min(k, |s|)
    ensures k < 0 ==> |r| == Max(|s| + k, 0)
  {
    if k >= 0 then (if k <= |s| then s[..k] else s)
    else if |s| + k > 0 then s[..|s| + k] else []
  }

  /** Number of occurrences of `x` in `s`. */
  function Count<T(==)>(s: seq<T>, x: T): nat {
    multiset(s)[x]
  }

  /** `list.index(x)`: the position of the first occurrence of `x`. */
  function FirstIndex<T(==)>(s: seq<T>, x: T): (i: nat)
    requires x in s
    ensures i < |s| && s[i] == x && x !in s[..i]
  {
    if s[0] == x then 0
    else
      var j := FirstIndex(s[1..], x);
      assert s[..j + 1] == [s[0]] + s[1..][..j];
      j + 1
  }

  /** `list.remove(x)`: deletes the first occurrence of `x`. */
  function RemoveFirst<T(==)>(s: seq<T>, x: T): (r: seq<T>)
    requires x in s
    ensures |r| == |s| - 1
    ensures multiset(r) == multiset(s) - multiset{x}
    ensures exists i :: 0 <= i < |s| && s[i] == x && x !in s[..i] && r == s[..i] + s[i + 1..]
  {
    var i := FirstIndex(s, x);
    assert s == s[..i] + [x] + s[i + 1..];
    s[..i] + s[i + 1..]
  }

  /** `if x in s: s.remove(x)`: the list without the first occurrence of `x`, if any. */
  function Discard<T(==)>(s: seq<T>, x: T): (r: seq<T>)
    ensures x !in s ==> r == s
  {
    if x in s then RemoveFirst(s, x) else s
  }

  /** `History(commands, max_items)`: nothing stored temporarily, cursor at the front. */
  function New(commands: seq<string>, maxItems: int): (h: History)
    ensures h.items == commands && h.maxItems == maxItems
    ensures Reset(h) == Returned(h, ())
  {
    History(commands, 0, false, maxItems)
  }

  /** `insert`: the command goes to the front, the old list shifts right and the
      result is cut to `max_items` elements. */
  function Insert(h: History, command: string): (r: History)
    ensures r.index == h.index && r.tempStored == h.tempStored && r.maxItems == h.maxItems
    ensures r.items <= [command] + h.items
    ensures h.maxItems >= 0 ==> |r.items| == Min(|h.items| + 1, h.maxItems)
    ensures h.maxItems < 0 ==> |r.items| == Max(|h.items| + 1 + h.maxItems, 0)
    ensures |r.items| > 0 ==> r.items[0] == command && r.items[1..] <= h.items
  {
    h.(items := Take([command] + h.items, h.maxItems))
  }

  /** `reset`: the cursor returns to the front and a temporarily stored text is dropped. */
  function Reset(h: History): (r: Step<()>)
    ensures r.state.index == 0 && r.state.maxItems == h.maxItems
    ensures r.Raised? <==> h.tempStored && |h.items| == 0
    ensures r.Raised? ==> r.state == h.(index := 0) && r.error == IndexError
    ensures r.Returned? ==> !r.state.tempStored
    ensures r.Returned? && h.tempStored ==> r.state.items == h.items[1..]
    ensures !h.tempStored ==> r.state.items == h.items
  {
    var h' := h.(index := 0);
    if h'.tempStored then
      if |h'.items| == 0 then Raised(h', IndexError)
      else Returned(h'.(items := h'.items[1..], tempStored := false), ())
    else Returned(h', ())
  }

  /** `update`: reset, drop the first earlier occurrence of the command, insert it. */
  function Update(h: History, command: string): (r: Step<()>)
    ensures r.Raised? <==> h.tempStored && |h.items| == 0
    ensures r.Raised? ==> r.state == h.(index := 0) && r.error == IndexError
    ensures r.state.index == 0 && r.state.maxItems == h.maxItems
    ensures r.Returned? ==> !r.state.tempStored
    ensures r.Returned? && h.maxItems >= 1 ==> |r.state.items| > 0 && r.state.items[0] == command
    ensures r.Returned? ==> Count(r.state.items, command) <= Max(Count(h.items, command), 1)
    ensures r.Returned? ==>
              var kept := Discard(if h.tempStored then h.items[1..] else h.items, command);
              && r.state.items <= [command] + kept
              && (h.maxItems >= 0 ==> |r.state.items| == Min(|kept| + 1, h.maxItems))
              && (h.maxItems < 0 ==> |r.state.items| == Max(|kept| + 1 + h.maxItems, 0))
  {
    match Reset(h)
    case Raised(s, e) => Raised(s, e)
    case Returned(s, _) =>
      var inserted := Insert(s.(items := Discard(s.items, command)), command);
      UpdateCount(h, s.items, inserted.items, command);
      Returned(inserted, ())
  }

  /** The list `update` builds holds the command at most as often as the old list, and at
      most once when the old list lacks it. */
  lemma UpdateCount(h: History, items: seq<string>, built: seq<string>, command: string)
    requires h.tempStored ==> |h.items| > 0
    requires items == (if h.tempStored then h.items[1..] else h.items)
    requires built <= [command] + Discard(items, command)
    ensures Count(built, command) <= Max(Count(h.items, command), 1)
  {
    if h.tempStored {
      TailCount(h.items, command);
    }
    DiscardCount(items, command);
    PrefixCount(built, [command] + Discard(items, command), command);
  }

  lemma TailCount<T>(s: seq<T>, x: T)
    requires |s| > 0
    ensures Count(s[1..], x) <= Count(s, x)
  {
    assert s == [s[0]] + s[1..];
  }

  /** The command moved to the front of a list occurs there as often as before, or once. */
  lemma DiscardCount<T>(s: seq<T>, x: T)
    ensures Count([x] + Discard(s, x), x) == Max(Count(s, x), 1)
  {
    assert multiset([x] + Discard(s, x)) == multiset{x} + multiset(Discard(s, x));
  }

  /** Once `update` has raised, the history is stuck: every later `update` raises again and
      leaves it as it is. */
  lemma UpdateStaysStuck(h: History, command: string, next: string)
    requires Update(h, command).Raised?
    ensures var stuck := Update(h, command).state;
            Update(stuck, next) == Raised(stuck, IndexError)
  {
  }

  lemma PrefixCount<T>(a: seq<T>, b: seq<T>, x: T)
    requires a <= b
    ensures Count(a, x) <= Count(b, x)
  {
    assert b == a + b[|a|..];
  }

  /** Python's `%` with a positive divisor, which like Dafny's never yields a negative number. */
  function PyMod(a: int, n: int): (r: int)
    requires n > 0
    ensures 0 <= r < n
  {
    a % n
  }

  /** `cycle`: on first use the current text is stored at the front; then the cursor moves
      one step ("next" forwards, anything else backwards) around the list and the command
      under it is returned. */
  function Cycle(h: History, direction: string, text: string): (r: Step<string>)
    ensures |h.items| == 0 ==> r == Returned(h, "")
    ensures |h.items| > 0 ==> r.state.tempStored && r.state.maxItems == h.maxItems
    ensures |h.items| > 0 && h.tempStored ==> r.Returned? && r.state.items == h.items
    ensures |h.items| > 0 && !h.tempStored ==> r.state.items == Insert(h, text).items
    ensures r.Raised? <==>
              |h.items| > 0 && !h.tempStored && (h.maxItems == 0 || h.maxItems + |h.items| + 1 <= 0)
    ensures r.Returned? && |h.items| > 0 ==>
              0 <= r.state.index < |r.state.items| && r.value == r.state.items[r.state.index]
  {
    if |h.items| == 0 then Returned(h, "")
    else
      var h' := if !h.tempStored then Insert(h, text).(tempStored := true) else h;
      if |h'.items| == 0 then Raised(h', ZeroDivisionError)
      else
        var i := if direction == "next" then PyMod(h'.index + 1, |h'.items|)
                 else PyMod(h'.index - 1, |h'.items|);
        Returned(h'.(index := i), h'.items[i])
  }

  /** The step each direction moves the cursor by. */
  function Offset(direction: string): int {
    if direction == "next" then 1 else -1
  }

  /** The cursor moves by one step modulo the length of the list after the (single) insert. */
  lemma CycleMovesCursor(h: History, direction: string, text: string)
    requires |h.items| > 0
    requires Cycle(h, direction, text).Returned?
    ensures var s := Cycle(h, direction, text).state;
            s.index == (h.index + Offset(direction)) % |s.items|
  {
  }

  /** Once cycling has started, "prev" undoes "next": the history returns to the state it
      had, cursor included, and the command shown is the one under the cursor again. */
  lemma CycleNextPrev(h: History, text: string, text': string)
    requires h.tempStored && 0 <= h.index < |h.items|
    ensures var r := Cycle(h, "next", text);
            r.Returned? && Cycle(r.state, "prev", text') == Returned(h, h.items[h.index])
  {
    var n := |h.items|;
    var i := PyMod(h.index + 1, n);
    CycleStarted(h, "next", text);
    CycleStarted(h.(index := i), "prev", text');
    StepBack(h.index, n);
    assert h.(index := i).(index := h.index) == h;
  }

  /** One step of a cycle that has started moves only the cursor. */
  lemma CycleStarted(h: History, direction: string, text: string)
    requires h.tempStored && |h.items| > 0
    ensures var i := PyMod(h.index + Offset(direction), |h.items|);
            Cycle(h, direction, text) == Returned(h.(index := i), h.items[i])
  {
  }

  /** Stepping the cursor forward and back again lands where it started. */
  lemma StepBack(a: int, n: int)
    requires 0 <= a < n
    ensures PyMod(PyMod(a + 1, n) - 1, n) == a
  {
    if a + 1 < n {
      assert PyMod(a + 1, n) == a + 1;
    } else {
      assert PyMod(a + 1, n) == 0;
      assert (0 - 1) % n == n - 1;
    }
  }

  /** A cycling session: `cycle` called once per element of `moves`, each with the
      direction and the command-line text of the moment. */
  function CycleAll(h: History, moves: seq<(string, string)>): (r: History)
    decreases |moves|
  {
    if |moves| == 0 then h
    else
      var step := Cycle(h, moves[0].0, moves[0].1);
      if step.Raised? then step.state else CycleAll(step.state, moves[1..])
  }

  /** However often one cycles, the text typed before cycling is stored once: the list
      after a session is the list after its first step. */
  lemma {:induction false} CycleInsertsOnce(h: History, moves: seq<(string, string)>)
    requires |h.items| > 0 && |moves| > 0
    ensures CycleAll(h, moves).items == Cycle(h, moves[0].0, moves[0].1).state.items
    decreases |moves|
  {
    var step := Cycle(h, moves[0].0, moves[0].1);
    if step.Returned? && |moves| > 1 {
      var s := step.state;
      assert s.tempStored && |s.items| > 0;
      CycleInsertsOnce(s, moves[1..]);
      assert moves[1..][0] == moves[1];
      assert Cycle(s, moves[1].0, moves[1].1).state.items == s.items;
    }
  }

  /** All commands of the list are different. */
  predicate Distinct<T(==)>(s: seq<T>) {
    forall i, j :: 0 <= i < j < |s| ==> s[i] != s[j]
  }

  lemma DistinctCount<T>(s: seq<T>, x: T)
    requires Distinct(s)
    ensures Count(s, x) <= 1
    decreases |s|
  {
    if |s| > 0 {
      assert s == [s[0]] + s[1..];
      DistinctCount(s[1..], x);
      if s[0] == x {
        assert x !in s[1..];
      }
    }
  }

  lemma CountDistinct<T>(s: seq<T>)
    requires forall x :: Count(s, x) <= 1
    ensures Distinct(s)
  {
    forall i, j | 0 <= i < j < |s|
      ensures s[i] != s[j]
    {
      assert s == s[..i] + [s[i]] + s[i + 1..j] + [s[j]] + s[j + 1..];
      assert Count(s, s[i]) >= 1 + (if s[j] == s[i] then 1 else 0);
    }
  }

  lemma PrefixDistinct<T>(a: seq<T>, b: seq<T>)
    requires a <= b && Distinct(b)
    ensures Distinct(a)
  {
    forall i, j | 0 <= i < j < |a|
      ensures a[i] != a[j]
    {
      assert a[i] == b[i] && a[j] == b[j];
    }
  }

  lemma FrontDistinct<T>(x: T, s: seq<T>)
    requires Distinct(s) && x !in s
    ensures Distinct([x] + s)
  {
    forall i, j | 0 <= i < j < |[x] + s|
      ensures ([x] + s)[i] != ([x] + s)[j]
    {
      assert ([x] + s)[j] == s[j - 1];
      if i > 0 {
        assert ([x] + s)[i] == s[i - 1];
      }
    }
  }

  lemma RemoveFirstDistinct<T>(s: seq<T>, x: T)
    requires x in s && Distinct(s)
    ensures Distinct(RemoveFirst(s, x)) && x !in RemoveFirst(s, x)
  {
    var r := RemoveFirst(s, x);
    forall y
      ensures Count(r, y) <= 1
    {
      DistinctCount(s, y);
    }
    CountDistinct(r);
    DistinctCount(s, x);
    assert Count(r, x) == 0;
  }

  /** The list `update` builds before cutting it: the command in front of the old list
      without it. */
  lemma MoveToFrontDistinct(items: seq<string>, command: string)
    requires Distinct(items)
    ensures var kept := Discard(items, command);
            Distinct([command] + kept) && command !in kept
  {
    if command in items {
      RemoveFirstDistinct(items, command);
    }
    var kept := Discard(items, command);
    FrontDistinct(command, kept);
  }

  /** A history whose commands are all different stays so under `update`, and then the
      updated command occurs exactly once (given room for at least one command). */
  lemma {:induction false} UpdateKeepsDistinct(h: History, command: string)
    requires Distinct(h.items)
    requires Update(h, command).Returned?
    ensures Distinct(Update(h, command).state.items)
    ensures h.maxItems >= 1 ==> Count(Update(h, command).state.items, command) == 1
  {
    var s := Reset(h).state;
    if h.tempStored {
      assert Distinct(h.items[1..]) by {
        forall i, j | 0 <= i < j < |h.items| - 1
          ensures h.items[1..][i] != h.items[1..][j]
        {
          assert h.items[1..][i] == h.items[i + 1] && h.items[1..][j] == h.items[j + 1];
        }
      }
    }
    assert Distinct(s.items);
    MoveToFrontDistinct(s.items, command);
    var kept := Discard(s.items, command);
    var r := Update(h, command).state.items;
    assert r <= [command] + kept;
    PrefixDistinct(r, [command] + kept);
    if h.maxItems >= 1 {
      assert r[0] == command;
      assert r == [command] + r[1..];
      assert r[1..] <= kept;
      assert command !in r[1..];
      assert multiset(r) == multiset{command} + multiset(r[1..]);
    }
  }

  /** An invariant every state reachable from `New` with `max_items >= 1` satisfies: while
      cycling, the list holds at least the stored text. */
  predicate Sound(h: History) {
    h.maxItems >= 1 && (h.tempStored ==> |h.items| > 0)
  }

  /** A fresh history with `max_items >= 1` is sound, and from a sound state no operation
      raises and every operation leads to a sound state again. */
  lemma NeverRaises(h: History, command: string, direction: string, text: string)
    requires Sound(h)
    ensures Reset(h).Returned? && Sound(Reset(h).state)
    ensures Update(h, command).Returned? && Sound(Update(h, command).state)
    ensures Cycle(h, direction, text).Returned? && Sound(Cycle(h, direction, text).state)
  {
  }

  lemma NewIsSound(commands: seq<string>, maxItems: int)
    requires maxItems >= 1
    ensures Sound(New(commands, maxItems))
  {
  }
}

=== FILE: history_file.dfy ===
/** The history file of vimiv/commands/history.py: one command per line. File access is
    replaced by the file's text, `None` standing for a file that does not exist. */
module HistoryFile {
  import opened Wrappers
  import PyStr

  /** `write`: every command followed by a newline. */
  function Write(commands: seq<string>): (text: string)
    ensures text == "" <==> |commands| == 0
    ensures |commands| > 0 ==> text[|text| - 1] == '\n'
  {
    if |commands| == 0 then "" else commands[0] + "\n" + Write(commands[1..])
  }

  /** Text-mode reading translates "\r\n" and a lone "\r" into "\n" (universal newlines). */
  function Translate(s: string): string {
    if |s| == 0 then ""
    else if s[0] == '\r' then
      if |s| > 1 && s[1] == '\n' then "\n" + Translate(s[2..]) else "\n" + Translate(s[1..])
    else [s[0]] + Translate(s[1..])
  }

  /** Position of the first newline of `s`, or `|s|` when there is none. */
  function LineEnd(s: string): (i: nat)
    ensures i <= |s| && '\n' !in s[..i]
    ensures i < |s| ==> s[i] == '\n'
  {
    if |s| == 0 || s[0] == '\n' then 0 else 1 + LineEnd(s[1..])
  }

  /** `readlines()`: the lines of `s`, each with its terminating newline; the last line has
      none when the text does not end in a newline. */
  function ReadLines(s: string): (lines: seq<string>)
    decreases |s|
  {
    if |s| == 0 then []
    else
      var i := LineEnd(s);
      if i == |s| then [s] else [s[..i + 1]] + ReadLines(s[i + 1..])
  }

  /** `line.rstrip("\n")`. */
  function StripNewlines(line: string): string {
    PyStr.TrimEnd(line, c => c == '\n')
  }

  /** Every line with its newline stripped. */
  function StripAll(lines: seq<string>): (r: seq<string>)
    ensures |r| == |lines|
  {
    if |lines| == 0 then [] else [StripNewlines(lines[0])] + StripAll(lines[1..])
  }

  /** The commands stored in a history file's text. */
  function Parse(file: string): seq<string> {
    StripAll(ReadLines(Translate(file)))
  }

  /** What `read` returns and the file's text afterwards. */
  datatype ReadOutcome = ReadOutcome(commands: seq<string>, file: string)

  /** `read`: a missing history file is created empty and gives no commands. */
  function Read(file: Option<string>): (r: ReadOutcome)
    ensures file.None? ==> r == ReadOutcome([], "")
    ensures file.Some? ==> r.file == file.value
  {
    match file
    case None => ReadOutcome([], "")
    case Some(text) => ReadOutcome(Parse(text), text)
  }

  /** A command that fits on one line: Python's text mode also ends a line at "\r". */
  predicate OneLine(command: string) {
    '\n' !in command && '\r' !in command
  }

  /** Every command followed by its newline, as `write` puts it in the file. */
  function Terminate(commands: seq<string>): (lines: seq<string>)
    ensures |lines| == |commands|
  {
    if |commands| == 0 then [] else [commands[0] + "\n"] + Terminate(commands[1..])
  }

  lemma {:induction false} ReadLinesOfWrite(commands: seq<string>)
    requires forall k :: 0 <= k < |commands| ==> OneLine(commands[k])
    ensures ReadLines(Write(commands)) == Terminate(commands)
    decreases |commands|
  {
    if |commands| > 0 {
      var c := commands[0];
      var s := Write(commands);
      var rest := Write(commands[1..]);
      assert s == c + "\n" + rest;
      assert LineEnd(s) == |c| by {
        LineEndAt(s, c);
      }
      assert s[..|c| + 1] == c + "\n";
      assert s[|c| + 1..] == rest;
      ReadLinesOfWrite(commands[1..]);
    }
  }

  lemma {:induction false} LineEndAt(s: string, c: string)
    requires '\n' !in c && |s| > |c| && s[..|c|] == c && s[|c|] == '\n'
    ensures LineEnd(s) == |c|
    decreases |c|
  {
    if |c| > 0 {
      assert s[0] == c[0];
      assert s[1..][..|c| - 1] == c[1..];
      LineEndAt(s[1..], c[1..]);
    }
  }

  lemma {:induction false} NoCarriageReturnInWrite(commands: seq<string>)
    requires forall k :: 0 <= k < |commands| ==> OneLine(commands[k])
    ensures '\r' !in Write(commands)
    decreases |commands|
  {
    if |commands| > 0 {
      assert OneLine(commands[0]);
      NoCarriageReturnInWrite(commands[1..]);
      assert Write(commands) == commands[0] + "\n" + Write(commands[1..]);
    }
  }

  /** `read` after `write` gives back the list, for commands that fit on one line. */
  lemma ReadWriteRoundTrip(commands: seq<string>)
    requires forall k :: 0 <= k < |commands| ==> OneLine(commands[k])
    ensures Read(Some(Write(commands))).commands == commands
  {
    NoCarriageReturnInWrite(commands);
    TranslateIdentity(Write(commands));
    ReadLinesOfWrite(commands);
    StripAllTerminated(commands);
  }

  lemma {:induction false} StripAllTerminated(commands: seq<string>)
    requires forall k :: 0 <= k < |commands| ==> OneLine(commands[k])
    ensures StripAll(Terminate(commands)) == commands
    decreases |commands|
  {
    if |commands| > 0 {
      PyStr.TrimEndUnique(commands[0] + "\n", c => c == '\n', commands[0], "\n");
      StripAllTerminated(commands[1..]);
    }
  }

  /** Translation passes over text without carriage returns unchanged. */
  lemma TranslateCons(c: char, t: string)
    requires c != '\r'
    ensures Translate([c] + t) == [c] + Translate(t)
  {
    assert ([c] + t)[1..] == t;
  }

  lemma {:induction false} TranslatePlain(x: string, y: string)
    requires '\r' !in x
    ensures Translate(x + y) == x + Translate(y)
    decreases |x|
  {
    if |x| == 0 {
      assert x + y == y;
    } else {
      assert x + y == [x[0]] + (x[1..] + y);
      assert x[0] != '\r' && '\r' !in x[1..];
      TranslateCons(x[0], x[1..] + y);
      TranslatePlain(x[1..], y);
      assert [x[0]] + (x[1..] + Translate(y)) == x + Translate(y);
    }
  }

  /** Text without carriage returns reads unchanged. */
  lemma TranslateIdentity(s: string)
    requires '\r' !in s
    ensures Translate(s) == s
  {
    TranslatePlain(s, "");
    assert s + "" == s;
  }

  /** `write` of one and of two commands. */
  lemma WriteOne(x: string)
    ensures Write([x]) == x + "\n"
  {
    assert [x][1..] == [];
  }

  lemma WriteTwo(x: string, y: string)
    ensures Write([x, y]) == x + "\n" + (y + "\n")
  {
    assert [x, y][1..] == [y];
    WriteOne(y);
  }

  /** The carriage return between two one-line parts reads as a newline. */
  lemma TranslateSplit(a: string, b: string)
    requires OneLine(a) && OneLine(b) && |b| > 0
    ensures Translate(a + "\r" + b + "\n") == a + "\n" + (b + "\n")
  {
    var tail := "\r" + (b + "\n");
    assert a + "\r" + b + "\n" == a + tail;
    TranslatePlain(a, tail);
    assert tail[0] == '\r' && tail[1] == b[0] && tail[1..] == b + "\n";
    assert Translate(tail) == "\n" + Translate(b + "\n");
    TranslateIdentity(b + "\n");
  }

  /** A command holding a carriage return between two nonempty parts comes back as those two
      commands, since text mode reads the carriage return as a line break. */
  lemma CarriageReturnSplits(a: string, b: string)
    requires OneLine(a) && OneLine(b) && |b| > 0
    ensures Read(Some(Write([a + "\r" + b]))).commands == [a, b]
  {
    WriteOne(a + "\r" + b);
    TranslateSplit(a, b);
    WriteTwo(a, b);
    var commands := [a, b];
    assert OneLine(commands[0]) && OneLine(commands[1]);
    ReadLinesOfWrite(commands);
    StripAllTerminated(commands);
  }

  /** Conversely, `write` after `read` reproduces a file that has no "\r" and is empty or
      ends in a newline. */
  lemma WriteReadRoundTrip(file: string)
    requires '\r' !in file && (file == "" || file[|file| - 1] == '\n')
    ensures Write(Read(Some(file)).commands) == file
  {
    TranslateIdentity(file);
    WriteOfLines(file);
  }

  /** Stripping the lines of a newline-terminated text and writing them again restores it. */
  lemma {:induction false} WriteOfLines(file: string)
    requires file == "" || file[|file| - 1] == '\n'
    ensures Write(StripAll(ReadLines(file))) == file
    decreases |file|
  {
    if |file| > 0 {
      var i := LineEnd(file);
      assert i < |file|;
      var line := file[..i];
      var rest := file[i + 1..];
      assert file == line + "\n" + rest;
      assert file[..i + 1] == line + "\n";
      assert ReadLines(file) == [line + "\n"] + ReadLines(rest);
      WriteOfLines(rest);
      PyStr.TrimEndUnique(line + "\n", c => c == '\n', line, "\n");
      assert StripAll(ReadLines(file)) == [line] + StripAll(ReadLines(rest));
    }
  }
}

=== FILE: posixpath.dfy ===
/** The POSIX path functions the thumbnail cache key is built from: `os.path.expanduser`,
    `os.path.join`, `os.path.normpath` and `os.path.abspath`, following CPython's posixpath
    module. The process environment they consult is passed in. */
module PosixPath {
  import PyStr

  /** What path resolution observes of the process: `os.getcwd()`, the directory a bare `~`
      stands for ($HOME, or else the password entry of the current user), and the password
      database's home directories by user name. */
  datatype Env = Env(cwd: string, home: string, users: map<string, string>)

  /** `os.getcwd()` always returns an absolute path. */
  predicate ValidEnv(env: Env) {
    IsAbs(env.cwd)
  }

  predicate IsAbs(p: string) {
    |p| > 0 && p[0] == '/'
  }

  /** `os.path.join(a, b)`: an absolute `b` replaces `a`; otherwise a separator is put
      between them unless `a` is empty or already ends in one. */
  function Join(a: string, b: string): string {
    if IsAbs(b) then b
    else if a == "" || a[|a| - 1] == '/' then a + b
    else a + "/" + b
  }

  lemma JoinKeepsAbs(a: string, b: string)
    requires IsAbs(a)
    ensures IsAbs(Join(a, b))
  {
  }

  /** `p.find("/", start)`, with `|p|` standing for "not found". */
  function FindSlash(p: string, start: nat): (i: nat)
    requires start <= |p|
    ensures start <= i <= |p|
    ensures i < |p| ==> p[i] == '/'
    decreases |p| - start
  {
    if start == |p| || p[start] == '/' then start else FindSlash(p, start + 1)
  }

  /** The end of `expanduser`: the home directory without trailing slashes, then the rest of
      the path; "/" when both are empty. */
  function WithHome(home: string, rest: string): string {
    var h := PyStr.TrimEnd(home, c => c == '/');
    if h + rest == "" then "/" else h + rest
  }

  /** `os.path.expanduser(p)`: a leading `~` or `~user` component becomes that user's home
      directory; an unknown user leaves the path as it is. */
  function ExpandUser(p: string, env: Env): (r: string)
    ensures (|p| == 0 || p[0] != '~') ==> r == p
  {
    if |p| == 0 || p[0] != '~' then p
    else
      var i := FindSlash(p, 1);
      if i == 1 then WithHome(env.home, p[i..])
      else
        var name := p[1..i];
        if name in env.users then WithHome(env.users[name], p[i..]) else p
  }

  /** `p.split("/")`. */
  function Split(p: string): (parts: seq<string>)
    ensures |parts| > 0
    ensures forall k :: 0 <= k < |parts| ==> '/' !in parts[k]
  {
    if |p| == 0 then [""]
    else
      var rest := Split(p[1..]);
      if p[0] == '/' then [""] + rest else [[p[0]] + rest[0]] + rest[1..]
  }

  /** `Split` is `str.split` with the separator "/". */
  lemma {:induction false} SplitIsSplitOn(p: string)
    ensures Split(p) == PyStr.SplitOn(p, "/")
    decreases |p|
  {
    if |p| > 0 {
      SplitIsSplitOn(p[1..]);
      assert ("/" <= p) == (p[0] == '/');
      assert p[|"/"|..] == p[1..];
    }
  }

  /** The loop of `normpath`: empty and "." components vanish, ".." removes the component
      before it; a ".." that cannot go up is kept in a relative path and dropped in a
      rooted one. */
  function NormComps(comps: seq<string>, rooted: bool, acc: seq<string>): seq<string>
    decreases |comps|
  {
    if |comps| == 0 then acc
    else
      var c := comps[0];
      var acc' :=
        if c == "" || c == "." then acc
        else if c != ".." || (!rooted && |acc| == 0) || (|acc| > 0 && acc[|acc| - 1] == "..") then acc + [c]
        else if |acc| > 0 then acc[..|acc| - 1]
        else acc;
      NormComps(comps[1..], rooted, acc')
  }

  /** POSIX lets a path start with exactly two slashes and treats three or more as one. */
  function InitialSlashes(p: string): nat {
    if |p| > 0 && p[0] == '/' then
      if |p| >= 2 && p[1] == '/' && !(|p| >= 3 && p[2] == '/') then 2 else 1
    else 0
  }

  function Slashes(n: nat): string {
    if n == 0 then "" else "/" + Slashes(n - 1)
  }

  /** `os.path.normpath(p)`. */
  function NormPath(p: string): string {
    if p == "" then "."
    else
      var k := InitialSlashes(p);
      var r := Slashes(k) + PyStr.Join(NormComps(Split(p), k > 0, []), "/");
      if r == "" then "." else r
  }

  /** `os.path.abspath(p)`: a relative path is joined to the working directory, then
      normalised. */
  function AbsPath(p: string, env: Env): string {
    NormPath(if IsAbs(p) then p else Join(env.cwd, p))
  }

  /** `os.path.abspath(os.path.expanduser(p))`. */
  function Canonical(p: string, env: Env): string {
    AbsPath(ExpandUser(p, env), env)
  }

  /** A component `normpath` keeps in a rooted path. */
  predicate Clean(c: string) {
    c != "" && c != "." && c != ".." && '/' !in c
  }

  predicate AllClean(cs: seq<string>) {
    forall k :: 0 <= k < |cs| ==> Clean(cs[k])
  }

  lemma {:induction false} NormCompsClean(comps: seq<string>, acc: seq<string>)
    requires AllClean(acc)
    requires forall k :: 0 <= k < |comps| ==> '/' !in comps[k]
    ensures AllClean(NormComps(comps, true, acc))
    decreases |comps|
  {
    if |comps| > 0 {
      var c := comps[0];
      var acc' :=
        if c == "" || c == "." then acc
        else if c != ".." || (!true && |acc| == 0) || (|acc| > 0 && acc[|acc| - 1] == "..") then acc + [c]
        else if |acc| > 0 then acc[..|acc| - 1]
        else acc;
      assert AllClean(acc');
      NormCompsClean(comps[1..], acc');
    }
  }

  lemma {:induction false} NormCompsOfClean(comps: seq<string>, acc: seq<string>)
    requires AllClean(comps)
    ensures NormComps(comps, true, acc) == acc + comps
    decreases |comps|
  {
    if |comps| > 0 {
      NormCompsOfClean(comps[1..], acc + [comps[0]]);
      assert acc + [comps[0]] + comps[1..] == acc + comps;
    }
  }

  lemma {:induction false} SplitNoSlash(c: string)
    requires '/' !in c
    ensures Split(c) == [c]
    decreases |c|
  {
    if |c| > 0 {
      SplitNoSlash(c[1..]);
      assert [c[0]] + c[1..] == c;
    }
  }

  lemma {:induction false} SplitAfter(c: string, t: string)
    requires '/' !in c
    ensures Split(c + "/" + t) == [c] + Split(t)
    decreases |c|
  {
    var s := c + "/" + t;
    if |c| == 0 {
      assert s[1..] == t;
    } else {
      assert s[1..] == c[1..] + "/" + t;
      SplitAfter(c[1..], t);
      assert [c[0]] + c[1..] == c;
    }
  }

  lemma {:induction false} SplitJoin(cs: seq<string>)
    requires |cs| > 0
    requires forall k :: 0 <= k < |cs| ==> '/' !in cs[k]
    ensures Split(PyStr.Join(cs, "/")) == cs
    decreases |cs|
  {
    if |cs| == 1 {
      SplitNoSlash(cs[0]);
    } else {
      SplitJoin(cs[1..]);
      SplitAfter(cs[0], PyStr.Join(cs[1..], "/"));
      assert [cs[0]] + cs[1..] == cs;
    }
  }

  /** `n` empty components, as `split` yields for `n` leading slashes. */
  function Empties(n: nat): seq<string> {
    if n == 0 then [] else [""] + Empties(n - 1)
  }

  lemma {:induction false} SplitSlashes(n: nat, t: string)
    ensures Split(Slashes(n) + t) == Empties(n) + Split(t)
    decreases n
  {
    if n > 0 {
      var s := Slashes(n) + t;
      assert s[1..] == Slashes(n - 1) + t;
      SplitSlashes(n - 1, t);
      assert s[0] == '/';
      assert Split(s) == [""] + Split(s[1..]);
      assert [""] + (Empties(n - 1) + Split(t)) == Empties(n) + Split(t);
    } else {
      assert Slashes(0) + t == t;
      assert Empties(0) + Split(t) == Split(t);
    }
  }

  lemma {:induction false} NormCompsSkipsEmpty(n: nat, comps: seq<string>, rooted: bool, acc: seq<string>)
    ensures NormComps(Empties(n) + comps, rooted, acc) == NormComps(comps, rooted, acc)
    decreases n
  {
    if n > 0 {
      var s := Empties(n) + comps;
      assert s[0] == "";
      assert s[1..] == Empties(n - 1) + comps;
      NormCompsSkipsEmpty(n - 1, comps, rooted, acc);
      assert NormComps(s, rooted, acc) == NormComps(s[1..], rooted, acc);
    } else {
      assert Empties(0) + comps == comps;
    }
  }

  lemma JoinStartsWithFirst(cs: seq<string>, sep: string)
    requires |cs| > 0
    ensures cs[0] <= PyStr.Join(cs, sep)
  {
  }

  /** The result of `normpath` on a rooted path: its leading slashes and its clean components. */
  lemma NormPathShape(p: string)
    requires IsAbs(p)
    ensures var k := InitialSlashes(p);
            var cs := NormComps(Split(p), true, []);
            && (k == 1 || k == 2)
            && AllClean(cs)
            && NormPath(p) == Slashes(k) + PyStr.Join(cs, "/")
  {
    NormCompsClean(Split(p), []);
  }

  /** `normpath` maps rooted paths to rooted paths and changes nothing on a second application. */
  lemma NormPathIdempotent(p: string)
    requires IsAbs(p)
    ensures IsAbs(NormPath(p))
    ensures NormPath(NormPath(p)) == NormPath(p)
  {
    NormPathShape(p);
    var k := InitialSlashes(p);
    var cs := NormComps(Split(p), true, []);
    var j := PyStr.Join(cs, "/");
    var q := NormPath(p);
    assert q == Slashes(k) + j;
    assert Slashes(1) == "/" && Slashes(2) == "//";
    if |cs| > 0 {
      JoinStartsWithFirst(cs, "/");
      assert Clean(cs[0]);
      assert j[0] == cs[0][0] && j[0] != '/';
    } else {
      assert j == "";
    }
    assert InitialSlashes(q) == k;
    SplitSlashes(k, j);
    if |cs| > 0 {
      SplitJoin(cs);
      NormCompsSkipsEmpty(k, cs, true, []);
      NormCompsOfClean(cs, []);
    } else {
      assert Split(j) == [""];
      NormCompsSkipsEmpty(k, [""], true, []);
    }
    assert NormComps(Split(q), true, []) == cs;
  }

  /** `abspath` always yields a rooted path. */
  lemma AbsPathIsAbs(p: string, env: Env)
    requires ValidEnv(env)
    ensures IsAbs(AbsPath(p, env))
  {
    var joined := if IsAbs(p) then p else Join(env.cwd, p);
    JoinKeepsAbs(env.cwd, p);
    NormPathIdempotent(joined);
  }

  /** A canonical path is its own canonical form: paths with the same absolute form are
      indistinguishable to anything computed from `Canonical`. */
  lemma CanonicalIdempotent(p: string, env: Env)
    requires ValidEnv(env)
    ensures Canonical(Canonical(p, env), env) == Canonical(p, env)
  {
    var e := ExpandUser(p, env);
    var joined := if IsAbs(e) then e else Join(env.cwd, e);
    JoinKeepsAbs(env.cwd, e);
    NormPathIdempotent(joined);
    var c := Canonical(p, env);
    assert c == NormPath(joined);
    assert ExpandUser(c, env) == c;
  }
}

=== FILE: pystr.dfy ===
/** The parts of Python's `str` API the model relies on: whitespace, stripping,
    word splitting, joining and substring replacement. */
module PyStr {

  /** The characters for which Python's `str.isspace()` holds; `str.strip()` and
      `str.split()` without arguments separate on exactly these. */
  predicate IsSpace(c: char) {
    || c == ' '
    || ('\t' <= c <= '\r')
    || ('\U{1C}' <= c <= '\U{1F}')
    || c == '\U{85}' || c == '\U{A0}' || c == '\U{1680}'
    || ('\U{2000}' <= c <= '\U{200A}')
    || c == '\U{2028}' || c == '\U{2029}' || c == '\U{202F}' || c == '\U{205F}' || c == '\U{3000}'
  }

  /** Every character of `s` satisfies `p`. */
  predicate All(s: string, p: char -> bool) {
    forall i :: 0 <= i < |s| ==> p(s[i])
  }

  /** `s.lstrip(chars)`: drops the longest prefix whose characters satisfy `drop`. */
  function TrimStart(s: string, drop: char -> bool): (r: string)
    ensures |r| <= |s| && r == s[|s| - |r|..]
    ensures All(s[..|s| - |r|], drop)
    ensures r == [] || !drop(r[0])
  {
    if |s| > 0 && drop(s[0]) then
      var r := TrimStart(s[1..], drop);
      assert s[..|s| - |r|] == [s[0]] + s[1..][..|s| - 1 - |r|];
      r
    else s
  }

  /** `s.rstrip(chars)`: drops the longest suffix whose characters satisfy `drop`. */
  function TrimEnd(s: string, drop: char -> bool): (r: string)
    ensures |r| <= |s| && r == s[..|r|]
    ensures All(s[|r|..], drop)
    ensures r == [] || !drop(r[|r| - 1])
  {
    if |s| > 0 && drop(s[|s| - 1]) then
      var r := TrimEnd(s[..|s| - 1], drop);
      assert s[|r|..] == s[..|s| - 1][|r|..] + [s[|s| - 1]];
      r
    else s
  }

  /** `s.strip()`: surrounding whitespace removed. */
  function Strip(s: string): string {
    TrimStart(TrimEnd(s, IsSpace), IsSpace)
  }

  /** Conversely to the contracts of `TrimEnd`: any split of `s` into a head that does not end
      in a dropped character and a tail made only of dropped characters is the one `TrimEnd` finds. */
  lemma {:induction false} TrimEndUnique(s: string, drop: char -> bool, head: string, tail: string)
    requires s == head + tail
    requires All(tail, drop)
    requires head == [] || !drop(head[|head| - 1])
    ensures TrimEnd(s, drop) == head
    decreases |tail|
  {
    if |tail| > 0 {
      var tail' := tail[..|tail| - 1];
      assert s[..|s| - 1] == head + tail';
      assert drop(tail[|tail| - 1]);
      TrimEndUnique(s[..|s| - 1], drop, head, tail');
    } else {
      assert s == head;
    }
  }

  /** The mirror image of `TrimEndUnique` for `TrimStart`. */
  lemma {:induction false} TrimStartUnique(s: string, drop: char -> bool, head: string, tail: string)
    requires s == head + tail
    requires All(head, drop)
    requires tail == [] || !drop(tail[0])
    ensures TrimStart(s, drop) == tail
    decreases |head|
  {
    if |head| > 0 {
      assert s[1..] == head[1..] + tail;
      assert drop(head[0]);
      TrimStartUnique(s[1..], drop, head[1..], tail);
    } else {
      assert s == tail;
    }
  }

  /** `Strip(s)` is the unique middle part of `s` between whitespace-only margins that
      neither starts nor ends with whitespace. */
  lemma StripCharacterization(s: string, lead: string, middle: string, trail: string)
    requires s == lead + middle + trail
    requires All(lead, IsSpace) && All(trail, IsSpace)
    requires middle == [] || (!IsSpace(middle[0]) && !IsSpace(middle[|middle| - 1]))
    ensures Strip(s) == middle
  {
    if middle == [] {
      assert s == [] + (lead + trail);
      assert All(lead + trail, IsSpace);
      TrimEndUnique(s, IsSpace, [], lead + trail);
      assert TrimStart([], IsSpace) == [];
    } else {
      assert s == (lead + middle) + trail;
      TrimEndUnique(s, IsSpace, lead + middle, trail);
      TrimStartUnique(lead + middle, IsSpace, lead, middle);
    }
  }

  /** No character of `s` satisfies `p`. */
  predicate Avoids(s: string, p: char -> bool) {
    forall i :: 0 <= i < |s| ==> !p(s[i])
  }

  /** Only an all-whitespace text strips to nothing. */
  lemma StripEmptyIff(s: string)
    ensures Strip(s) == [] <==> All(s, IsSpace)
  {
    var e := TrimEnd(s, IsSpace);
    if All(s, IsSpace) {
      assert s == [] + s;
      TrimEndUnique(s, IsSpace, [], s);
    }
    if Strip(s) == [] {
      assert e[..|e| - 0] == e;
      assert s == s[|e|..];
    }
  }

  /** The longest prefix of `s` containing no separator. */
  function TakeWord(s: string, sep: char -> bool): (w: string)
    ensures w <= s && Avoids(w, sep)
    ensures |w| == |s| || sep(s[|w|])
    decreases |s|
  {
    if |s| == 0 || sep(s[0]) then [] else [s[0]] + TakeWord(s[1..], sep)
  }

  /** The maximal runs of non-separator characters of `s`, in order: `s.split()` when `sep`
      is `IsSpace`. */
  function Words(s: string, sep: char -> bool): (ws: seq<string>)
    decreases |s|
  {
    var t := TrimStart(s, sep);
    if |t| == 0 then []
    else
      var w := TakeWord(t, sep);
      assert |w| > 0 by { assert !sep(t[0]); }
      [w] + Words(t[|w|..], sep)
  }

  /** Every word is nonempty and free of separators. */
  lemma {:induction false} WordsShape(s: string, sep: char -> bool)
    ensures forall k :: 0 <= k < |Words(s, sep)| ==> |Words(s, sep)[k]| > 0 && Avoids(Words(s, sep)[k], sep)
    decreases |s|
  {
    var t := TrimStart(s, sep);
    if |t| > 0 {
      var w := TakeWord(t, sep);
      assert !sep(t[0]);
      var rest := t[|w|..];
      WordsShape(rest, sep);
      var ws := Words(s, sep);
      assert ws == [w] + Words(rest, sep);
      forall k | 0 <= k < |ws|
        ensures |ws[k]| > 0 && Avoids(ws[k], sep)
      {
        if k > 0 {
          assert ws[k] == Words(rest, sep)[k - 1];
        }
      }
    }
  }

  /** A string has no words exactly when every character in it is a separator. */
  lemma WordsEmptyIff(s: string, sep: char -> bool)
    ensures Words(s, sep) == [] <==> All(s, sep)
  {
    var t := TrimStart(s, sep);
    if |t| > 0 {
      assert s[|s| - |t|] == t[0];
    } else {
      assert s == s[..|s| - |t|];
    }
  }

  /** The first word is the longest separator-free prefix after the leading separators. */
  lemma FirstWordIsTaken(s: string, sep: char -> bool)
    requires Words(s, sep) != []
    ensures Words(s, sep)[0] == TakeWord(TrimStart(s, sep), sep)
  {
  }

  /** A separator-free prefix followed by a separator (or nothing) is the word taken. */
  lemma {:induction false} TakeWordUnique(w: string, rest: string, sep: char -> bool)
    requires Avoids(w, sep)
    requires rest == [] || sep(rest[0])
    ensures TakeWord(w + rest, sep) == w
    decreases |w|
  {
    if |w| == 0 {
      assert w + rest == rest;
    } else {
      assert (w + rest)[1..] == w[1..] + rest;
      TakeWordUnique(w[1..], rest, sep);
    }
  }

  /** One step of `Words`: a text with a non-separator after its leading separators starts
      with the word taken there. */
  lemma WordsStep(s: string, t: string, sep: char -> bool)
    requires TrimStart(s, sep) == t && |t| > 0
    ensures Words(s, sep) == [TakeWord(t, sep)] + Words(t[|TakeWord(t, sep)|..], sep)
  {
  }

  /** The first word of separators, a separator-free word, then a separator or nothing, is
      that word. */
  lemma FirstWordOf(indent: string, word: string, rest: string, sep: char -> bool)
    requires All(indent, sep) && |word| > 0 && Avoids(word, sep)
    requires rest == [] || sep(rest[0])
    ensures Words(indent + word + rest, sep) != []
    ensures Words(indent + word + rest, sep)[0] == word
  {
    var t := word + rest;
    assert indent + word + rest == indent + t;
    assert t[0] == word[0] && !sep(word[0]);
    TrimStartUnique(indent + t, sep, indent, t);
    TakeWordUnique(word, rest, sep);
    WordsStep(indent + t, t, sep);
  }

  /** `sep.join(parts)`. */
  function Join(parts: seq<string>, sep: string): string {
    if |parts| == 0 then ""
    else if |parts| == 1 then parts[0]
    else parts[0] + sep + Join(parts[1..], sep)
  }

  /** `s.replace(pat, repl)` for a non-empty `pat`: occurrences are replaced left to right,
      without overlapping. */
  function Replace(s: string, pat: string, repl: string): string
    requires |pat| > 0
    decreases |s|
  {
    if |s| < |pat| then s
    else if pat <= s then repl + Replace(s[|pat|..], pat, repl)
    else [s[0]] + Replace(s[1..], pat, repl)
  }

  /** `pat` occurs in `s` at position `i`. */
  predicate OccursAt(s: string, pat: string, i: int) {
    0 <= i && i + |pat| <= |s| && s[i..i + |pat|] == pat
  }

  /** `pat` occurs in `s` as a substring. */
  predicate Occurs(s: string, pat: string) {
    exists i | 0 <= i <= |s| :: OccursAt(s, pat, i)
  }

  /** A text without any occurrence of `pat` is returned unchanged. */
  lemma {:induction false} ReplaceAbsent(s: string, pat: string, repl: string)
    requires |pat| > 0 && !Occurs(s, pat)
    ensures Replace(s, pat, repl) == s
    decreases |s|
  {
    if |s| >= |pat| {
      assert !OccursAt(s, pat, 0);
      assert s[0..|pat|] == s[..|pat|];
      assert !Occurs(s[1..], pat) by {
        forall i | OccursAt(s[1..], pat, i)
          ensures false
        {
          assert s[1..][i..i + |pat|] == s[i + 1..i + 1 + |pat|];
          assert OccursAt(s, pat, i + 1);
        }
      }
      ReplaceAbsent(s[1..], pat, repl);
    }
  }

  /** Replacing a word by itself changes nothing. */
  lemma {:induction false} ReplaceSelf(s: string, pat: string)
    requires |pat| > 0
    ensures Replace(s, pat, pat) == s
    decreases |s|
  {
    if |s| >= |pat| {
      if pat <= s {
        ReplaceSelf(s[|pat|..], pat);
        assert s == pat + s[|pat|..];
      } else {
        ReplaceSelf(s[1..], pat);
        assert s == [s[0]] + s[1..];
      }
    }
  }

  /** `s.split(sep)` for a non-empty separator: the pieces between non-overlapping
      occurrences of `sep`, scanning left to right. */
  function SplitOn(s: string, sep: string): (r: seq<string>)
    requires |sep| > 0
    ensures |r| > 0
    decreases |s|
  {
    if |s| < |sep| then [s]
    else if sep <= s then [""] + SplitOn(s[|sep|..], sep)
    else
      var rest := SplitOn(s[1..], sep);
      [[s[0]] + rest[0]] + rest[1..]
  }

  /** Prepending a character to the first part of a join prepends it to the joined text. */
  lemma {:induction false} JoinConsFirst(c: char, parts: seq<string>, sep: string)
    requires |parts| > 0
    ensures Join([[c] + parts[0]] + parts[1..], sep) == [c] + Join(parts, sep)
  {
    var ps := [[c] + parts[0]] + parts[1..];
    if |parts| > 1 {
      assert ps[1..] == parts[1..];
    }
  }

  /** `s.replace(pat, repl) == repl.join(s.split(pat))`: replacement agrees with the
      independent split-then-join reading of it. */
  lemma {:induction false} ReplaceIsSplitJoin(s: string, pat: string, repl: string)
    requires |pat| > 0
    ensures Replace(s, pat, repl) == Join(SplitOn(s, pat), repl)
    decreases |s|
  {
    if |s| < |pat| {
    } else if pat <= s {
      ReplaceIsSplitJoin(s[|pat|..], pat, repl);
      var rest := SplitOn(s[|pat|..], pat);
      assert SplitOn(s, pat) == [""] + rest;
      assert ([""] + rest)[1..] == rest;
    } else {
      ReplaceIsSplitJoin(s[1..], pat, repl);
      JoinConsFirst(s[0], SplitOn(s[1..], pat), repl);
    }
  }
}

=== FILE: runners.dfy ===
/** The text preprocessing of vimiv/commands/runners.py: splitting a command into count,
    name and arguments, expanding the `%` and `*` wildcards, replacing aliases, and deriving
    the text and pipe flag of a shell command. */
module Runners {
  import opened Wrappers
  import opened PyStr
  import Decimal

  /** The characters `shlex.split` separates tokens on. */
  predicate IsShlexSpace(c: char) {
    c == ' ' || c == '\t' || c == '\r' || c == '\n'
  }

  /** `shlex.split(text)`, for texts without quotes or backslash escapes. */
  function ShlexSplit(text: string): seq<string> {
    Words(text, IsShlexSpace)
  }

  /** Raised where the source indexes `[0]` into the split of a blank text. */
  datatype CommandError = EmptyCommand

  /** What `_parse` returns: the leading digits, the rest of the command name and the
      arguments. */
  datatype Parsed = Parsed(count: string, name: string, args: seq<string>)

  lemma ShlexSpaceIsSpace(c: char)
    ensures IsShlexSpace(c) ==> IsSpace(c)
  {
  }

  lemma BlankIff(text: string)
    ensures ShlexSplit(Strip(text)) == [] <==> All(text, IsSpace)
  {
    StripEmptyIff(text);
    var t := Strip(text);
    WordsEmptyIff(t, IsShlexSpace);
    if |t| > 0 {
      assert t == TrimStart(TrimEnd(text, IsSpace), IsSpace);
      assert !IsSpace(t[0]);
      ShlexSpaceIsSpace(t[0]);
      assert !All(t, IsShlexSpace);
    }
  }

  /** The loop of `_parse` that moves the leading digits of the first token into the count:
      afterwards the count is all digits and the name does not start with one. */
  method SplitCount(token: string) returns (count: string, name: string)
    ensures count + name == token
    ensures forall i :: 0 <= i < |count| ==> Decimal.IsDigit(count[i])
    ensures name == [] || !Decimal.IsDigit(name[0])
  {
    count := "";
    name := token;
    while |name| > 0 && Decimal.IsDigit(name[0])
      invariant count + name == token
      invariant forall i :: 0 <= i < |count| ==> Decimal.IsDigit(count[i])
      decreases |name|
    {
      count := count + [name[0]];
      name := name[1..];
    }
  }

  /** `_parse`: the first token of the stripped text is split into its leading digits
      (the count) and the command name; the remaining tokens are the arguments. A blank
      text raises. */
  method Parse(text: string) returns (r: Result<Parsed, CommandError>)
    ensures r.Failure? <==> All(text, IsSpace)
    ensures r.Success? ==>
              var tokens := ShlexSplit(Strip(text));
              && |tokens| > 0
              && r.value.count + r.value.name == tokens[0]
              && (forall i :: 0 <= i < |r.value.count| ==> Decimal.IsDigit(r.value.count[i]))
              && (r.value.name == [] || !Decimal.IsDigit(r.value.name[0]))
              && r.value.args == tokens[1..]
  {
    BlankIff(text);
    var split := ShlexSplit(Strip(text));
    if |split| == 0 {
      return Failure(EmptyCommand);
    }
    var count, name := SplitCount(split[0]);
    return Success(Parsed(count, name, split[1..]));
  }

  /** `re.sub(r'(?<!\\)' + c, rep, s)` with a literal replacement: scanning left to right,
      every `c` not directly preceded by a backslash becomes `rep`. `escaped` tells whether the
      character before `s` was a backslash. */
  function Substitute(s: string, c: char, rep: string, escaped: bool): (r: string)
    ensures rep == [c] ==> r == s
    decreases |s|
  {
    if |s| == 0 then ""
    else (if s[0] == c && !escaped then rep else [s[0]]) + Substitute(s[1..], c, rep, s[0] == '\\')
  }

  /** Whether the last character of `a` (or, for an empty `a`, the one before it) is a backslash. */
  function EndsEscaped(a: string, escaped: bool): bool {
    if |a| == 0 then escaped else a[|a| - 1] == '\\'
  }

  /** A text without `c` is left as it is. */
  lemma {:induction false} SubstituteAbsent(s: string, c: char, rep: string, escaped: bool)
    requires c !in s
    ensures Substitute(s, c, rep, escaped) == s
    decreases |s|
  {
    if |s| > 0 {
      SubstituteAbsent(s[1..], c, rep, s[0] == '\\');
    }
  }

  /** Substitution works piecewise: the second part only needs to know whether the first
      ended in a backslash. */
  lemma {:induction false} SubstituteAppend(a: string, b: string, c: char, rep: string, escaped: bool)
    ensures Substitute(a + b, c, rep, escaped)
            == Substitute(a, c, rep, escaped) + Substitute(b, c, rep, EndsEscaped(a, escaped))
    decreases |a|
  {
    if |a| > 0 {
      var e := a[0] == '\\';
      var head := if a[0] == c && !escaped then rep else [a[0]];
      var t := a[1..];
      assert a + b == [a[0]] + (t + b);
      assert a == [a[0]] + t;
      EndsEscapedTail(a, escaped);
      var x := Substitute(t, c, rep, e);
      var y := Substitute(b, c, rep, EndsEscaped(a, escaped));
      calc {
        Substitute(a + b, c, rep, escaped);
        { SubstituteCons(a[0], t + b, c, rep, escaped); }
        head + Substitute(t + b, c, rep, e);
        { SubstituteAppend(t, b, c, rep, e); }
        head + (x + y);
        (head + x) + y;
        { SubstituteCons(a[0], t, c, rep, escaped); }
        Substitute(a, c, rep, escaped) + y;
      }
    } else {
      assert a + b == b;
    }
  }

  lemma EndsEscapedTail(a: string, escaped: bool)
    requires |a| > 0
    ensures EndsEscaped(a[1..], a[0] == '\\') == EndsEscaped(a, escaped)
  {
    if |a| > 1 {
      assert a[1..][|a[1..]| - 1] == a[|a| - 1];
    }
  }

  lemma SubstituteCons(x: char, t: string, c: char, rep: string, escaped: bool)
    ensures Substitute([x] + t, c, rep, escaped)
            == (if x == c && !escaped then rep else [x]) + Substitute(t, c, rep, x == '\\')
  {
    assert ([x] + t)[0] == x && ([x] + t)[1..] == t;
  }

  /** At any occurrence of `c`: an escaped `\c` is kept verbatim, backslash included, and any
      other `c` becomes `rep`; the text before and after is substituted on its own. */
  lemma SubstituteAt(s: string, i: int, c: char, rep: string)
    requires 0 <= i < |s| && s[i] == c && c != '\\'
    ensures Substitute(s, c, rep, false)
            == Substitute(s[..i], c, rep, false)
               + (if i > 0 && s[i - 1] == '\\' then [c] else rep)
               + Substitute(s[i + 1..], c, rep, false)
  {
    var rest := s[i + 1..];
    assert s == s[..i] + ([c] + rest);
    SubstituteAppend(s[..i], [c] + rest, c, rep, false);
    var e := EndsEscaped(s[..i], false);
    assert e == (i > 0 && s[i - 1] == '\\');
    assert ([c] + rest)[0] == c && ([c] + rest)[1..] == rest;
    assert Substitute([c] + rest, c, rep, e) == (if e then [c] else rep) + Substitute(rest, c, rep, false);
  }

  /** Every `c` in `s` is directly preceded by a backslash (or, at the very front, by the
      backslash `escaped` stands for). */
  predicate AllEscaped(s: string, c: char, escaped: bool) {
    && (|s| > 0 && s[0] == c ==> escaped)
    && (forall i :: 1 <= i < |s| && s[i] == c ==> s[i - 1] == '\\')
  }

  lemma {:induction false} SubstituteLeavesEscaped(s: string, c: char, rep: string, escaped: bool)
    requires c != '\\' && c !in rep
    ensures AllEscaped(Substitute(s, c, rep, escaped), c, escaped)
    decreases |s|
  {
    if |s| > 0 {
      var e' := s[0] == '\\';
      var rest := Substitute(s[1..], c, rep, e');
      SubstituteLeavesEscaped(s[1..], c, rep, e');
      var r := Substitute(s, c, rep, escaped);
      if s[0] == c && !escaped {
        assert r == rep + rest;
        assert !e';
        forall i | 1 <= i < |r| && r[i] == c
          ensures r[i - 1] == '\\'
        {
          assert i - |rep| >= 1 && rest[i - |rep|] == c;
          assert r[i - 1] == rest[i - |rep| - 1];
        }
      } else {
        assert r == [s[0]] + rest;
        forall i | 1 <= i < |r| && r[i] == c
          ensures r[i - 1] == '\\'
        {
          assert rest[i - 1] == c;
          if i > 1 {
            assert r[i - 1] == rest[i - 2];
          }
        }
      }
    }
  }

  /** After the substitution no `c` is left unescaped, provided the replacement holds none. */
  lemma SubstituteLeavesNoUnescaped(s: string, c: char, rep: string)
    requires c != '\\' && c !in rep
    ensures AllEscaped(Substitute(s, c, rep, false), c, false)
  {
    SubstituteLeavesEscaped(s, c, rep, false);
  }

  /** `re.sub` processes backslash escapes in its replacement; a replacement without
      backslashes is inserted literally. */
  predicate Literal(rep: string) {
    '\\' !in rep
  }

  /** `expand_wildcards`: unescaped `%` becomes the current path, then unescaped `*` becomes
      the space-joined path list. Each substitution is only attempted when its character is
      present. */
  function ExpandWildcards(text: string, current: string, paths: seq<string>): (r: string)
    requires Literal(current) && Literal(Join(paths, " "))
    ensures '%' !in text && '*' !in text ==> r == text
  {
    var t := if '%' in text then Substitute(text, '%', current, false) else text;
    if '*' in t then Substitute(t, '*', Join(paths, " "), false) else t
  }

  /** The presence checks only save work: the result is the two substitutions in order. */
  lemma ExpandIsTwoPasses(text: string, current: string, paths: seq<string>)
    requires Literal(current) && Literal(Join(paths, " "))
    ensures ExpandWildcards(text, current, paths)
            == Substitute(Substitute(text, '%', current, false), '*', Join(paths, " "), false)
  {
    if '%' !in text {
      SubstituteAbsent(text, '%', current, false);
    }
    var t := Substitute(text, '%', current, false);
    if '*' !in t {
      SubstituteAbsent(t, '*', Join(paths, " "), false);
    }
  }

  /** `%` is expanded before `*`, so the stars of the current path are themselves expanded:
      a lone `%` yields the current path with its unescaped stars replaced by the path list. */
  lemma PercentBeforeStar(current: string, paths: seq<string>)
    requires Literal(current) && Literal(Join(paths, " "))
    ensures ExpandWildcards("%", current, paths) == Substitute(current, '*', Join(paths, " "), false)
  {
    ExpandIsTwoPasses("%", current, paths);
    assert "%"[0] == '%' && "%"[1..] == "";
    assert Substitute("%", '%', current, false) == current + Substitute("", '%', current, false);
    assert Substitute("%", '%', current, false) == current;
  }

  /** An instance: the current path "a*b" and the path list ["x", "y"] expand "%" to "ax yb". */
  lemma PercentBeforeStarExample()
    ensures ExpandWildcards("%", "a*b", ["x", "y"]) == "ax yb"
  {
    PercentBeforeStar("a*b", ["x", "y"]);
    assert Join(["x", "y"], " ") == "x y";
    assert Substitute("b", '*', "x y", true) == "b";
    assert Substitute("*b", '*', "x y", false) == "x y" + Substitute("b", '*', "x y", false);
    assert Substitute("a*b", '*', "x y", false) == "a" + Substitute("*b", '*', "x y", false);
  }

  /** `alias`: when the first whitespace-separated word of the text is an alias, every
      occurrence of that word in the text is replaced by its expansion. A blank text raises. */
  function Alias(text: string, aliases: map<string, string>): (r: Result<string, CommandError>)
    ensures r.Failure? <==> All(text, IsSpace)
    ensures r.Success? && Words(text, IsSpace)[0] !in aliases ==> r.value == text
  {
    WordsEmptyIff(text, IsSpace);
    var words := Words(text, IsSpace);
    if |words| == 0 then Failure(EmptyCommand)
    else
      var cmd := words[0];
      if cmd in aliases then Success(Replace(text, cmd, aliases[cmd])) else Success(text)
  }

  /** Replacement passes over a prefix none of whose characters can start an occurrence. */
  lemma {:induction false} ReplaceSkips(p: string, t: string, pat: string, repl: string)
    requires |pat| > 0
    requires forall i :: 0 <= i < |p| ==> p[i] != pat[0]
    ensures Replace(p + t, pat, repl) == p + Replace(t, pat, repl)
    decreases |p|
  {
    if |p| > 0 {
      var s := p + t;
      assert s[1..] == p[1..] + t;
      ReplaceSkips(p[1..], t, pat, repl);
      if |s| < |pat| {
        assert |t| < |pat|;
      } else {
        assert s[0] != pat[0];
      }
    } else {
      assert p + t == t;
    }
  }

  /** Replacement passes over such a prefix and then replaces the occurrence it meets. */
  lemma ReplaceAfterSkip(lead: string, t: string, w: string, repl: string)
    requires |w| > 0 && w <= t
    requires forall i :: 0 <= i < |lead| ==> lead[i] != w[0]
    ensures Replace(lead + t, w, repl) == lead + repl + Replace(t[|w|..], w, repl)
  {
    ReplaceSkips(lead, t, w, repl);
  }

  lemma AliasReplaces(text: string, aliases: map<string, string>)
    requires Words(text, IsSpace) != [] && Words(text, IsSpace)[0] in aliases
    ensures var w := Words(text, IsSpace)[0];
            Alias(text, aliases) == Success(Replace(text, w, aliases[w]))
  {
  }

  lemma ReplaceIndentedWord(indent: string, word: string, rest: string, repl: string)
    requires All(indent, IsSpace) && |word| > 0 && Avoids(word, IsSpace)
    ensures Replace(indent + word + rest, word, repl) == indent + repl + Replace(rest, word, repl)
  {
    assert !IsSpace(word[0]);
    assert forall i :: 0 <= i < |indent| ==> indent[i] != word[0];
    assert indent + word + rest == indent + (word + rest);
    ReplaceAfterSkip(indent, word + rest, word, repl);
    assert (word + rest)[|word|..] == rest;
  }

  /** A text made of indentation, an alias and then whitespace or nothing becomes its
      indentation, the expansion, and the rest of the text with the remaining occurrences of
      the alias replaced as well. */
  lemma AliasExpandsFirstWord(indent: string, word: string, rest: string, aliases: map<string, string>)
    requires All(indent, IsSpace) && |word| > 0 && Avoids(word, IsSpace)
    requires rest == [] || IsSpace(rest[0])
    requires word in aliases
    ensures Alias(indent + word + rest, aliases)
            == Success(indent + aliases[word] + Replace(rest, word, aliases[word]))
  {
    FirstWordOf(indent, word, rest, IsSpace);
    AliasReplaces(indent + word + rest, aliases);
    assert Avoids(word, IsSpace);
    ReplaceIndentedWord(indent, word, rest, aliases[word]);
  }

  /** `update_command`: aliases are replaced first, wildcards expanded afterwards. */
  function UpdateCommand(text: string, aliases: map<string, string>, current: string, paths: seq<string>)
    : (r: Result<string, CommandError>)
    requires Literal(current) && Literal(Join(paths, " "))
    ensures r.Failure? <==> All(text, IsSpace)
    ensures r.Success? && Words(text, IsSpace)[0] !in aliases && '%' !in text && '*' !in text
            ==> r.value == text
  {
    match Alias(text, aliases)
    case Failure(e) => Failure(e)
    case Success(t) => Success(ExpandWildcards(t, current, paths))
  }

  /** Aliases are replaced before wildcards are expanded, so wildcards written inside an
      alias's expansion are expanded too. */
  lemma UpdateExpandsAliasFirst(indent: string, word: string, rest: string, aliases: map<string, string>,
                                current: string, paths: seq<string>)
    requires All(indent, IsSpace) && |word| > 0 && Avoids(word, IsSpace)
    requires rest == [] || IsSpace(rest[0])
    requires word in aliases
    requires Literal(current) && Literal(Join(paths, " "))
    ensures UpdateCommand(indent + word + rest, aliases, current, paths)
            == Success(ExpandWildcards(indent + aliases[word] + Replace(rest, word, aliases[word]), current, paths))
  {
    AliasExpandsFirstWord(indent, word, rest, aliases);
  }

  /** The text and pipe flag of a `ShellCommandRunnable`. */
  datatype ShellCommand = ShellCommand(text: string, pipe: bool)

  /** `ShellCommandRunnable.__init__`: trailing `|` characters and then surrounding whitespace
      are stripped from the text; the command pipes its output when the raw text ends in `|`. */
  function NewShellCommand(text: string): (r: ShellCommand)
    ensures r.pipe <==> |text| > 0 && text[|text| - 1] == '|'
    ensures r.text == [] || (!IsSpace(r.text[0]) && !IsSpace(r.text[|r.text| - 1]))
    ensures |r.text| <= |text|
  {
    ShellCommand(Strip(TrimEnd(text, c => c == '|')), |text| > 0 && text[|text| - 1] == '|')
  }

  /** The stored text is the command between whitespace margins in front of the trailing
      bars, and the flag tells whether there were any bars. */
  lemma ShellCommandParts(text: string, lead: string, body: string, trail: string, bars: string)
    requires text == lead + body + trail + bars
    requires All(lead, IsSpace) && All(trail, IsSpace) && All(bars, c => c == '|')
    requires body == [] || (!IsSpace(body[0]) && !IsSpace(body[|body| - 1]))
    requires var m := lead + body + trail; m == [] || m[|m| - 1] != '|'
    ensures NewShellCommand(text) == ShellCommand(body, |bars| > 0)
  {
    var m := lead + body + trail;
    TrimEndUnique(text, c => c == '|', m, bars);
    StripCharacterization(m, lead, body, trail);
    if |bars| == 0 {
      assert text == m;
    } else {
      assert text[|text| - 1] == bars[|bars| - 1];
    }
  }

  /** Bars followed by whitespace are not stripped, and the command does not pipe. */
  lemma ShellCommandTrailingSpace()
    ensures NewShellCommand("ls | ") == ShellCommand("ls |", false)
  {
    ShellCommandParts("ls | ", "", "ls |", " ", "");
  }
}

=== FILE: thumbnails.dfy ===
/** The thumbnail cache of vimiv/utils/thumbnail_manager.py, after the freedesktop.org
    Thumbnail Managing Standard: where a thumbnail is stored, when a stored one is reused,
    when it is rebuilt, and what a batch of requests emits. The thread pool, Qt's image
    classes and the file system are replaced by the values they deliver. */
module Thumbnails {
  import opened Wrappers
  import Decimal
  import PosixPath

  /** The text fields every stored thumbnail carries. */
  const KeyUri := "Thumb::URI"
  const KeyMTime := "Thumb::MTime"
  const KeySize := "Thumb::Size"
  const KeyWidth := "Thumb::Image::Width"
  const KeyHeight := "Thumb::Image::Height"
  const KeySoftware := "Software"

  /** An image as the image library hands it out: the null image (what reading a missing or
      undecodable file gives) or pixels of some size; the pixels themselves are opaque. */
  datatype Image = NullImage | Picture(width: int, height: int, pixels: nat)

  function Width(img: Image): int {
    if img.Picture? then img.width else 0
  }

  function Height(img: Image): int {
    if img.Picture? then img.height else 0
  }

  /** A file of the cache directory as `QImage(path)` reads it back: its image and its PNG text
      fields. A file that cannot be decoded reads as the null image with no text. */
  datatype CacheFile = CacheFile(image: Image, text: map<string, string>)

  /** The files under the thumbnail directories, by full path. */
  type Cache = map<string, CacheFile>

  /** `int(os.path.getmtime(path))` and `os.path.getsize(path)`. */
  datatype Stat = Stat(mtime: int, size: int)

  /** What a creator observes of a source path: its status (`None` when the path does not
      exist), `os.access(path, os.R_OK)`, and the image `QImageReader` reads (`None` when
      `canRead()` is false). */
  datatype Source = Source(stat: Option<Stat>, readable: bool, decoded: Option<Image>)

  /** What a creator hands back: the scaled image, the manager's failure icon, or `False`
      for a source it may not read. */
  datatype Icon = ImageIcon(image: Image) | FailIcon | NoIcon

  /** The collaborators the creator calls but the model does not implement: the path
      environment, the hex MD5 digest of the URI's UTF-8 bytes, `QImage.scaled` to a square
      bound with smooth scaling that keeps the aspect ratio, and the sources by path. */
  datatype World = World(
    env: PosixPath.Env,
    digest: string -> string,
    scale: (Image, int) -> Image,
    sources: map<string, Source>)

  /** A path nothing is known about is observed as missing. */
  function Observe(w: World, path: string): Source {
    if path in w.sources then w.sources[path] else Source(None, false, None)
  }

  /** A `ThumbnailManager`: the tier, the tier's directory, the failure directory, and the
      program version the `Software` field names. */
  datatype Manager = Manager(large: bool, directory: string, failDirectory: string, version: string)

  function ThumbnailsRoot(cacheHome: string): string {
    PosixPath.Join(cacheHome, "thumbnails")
  }

  lemma RootEndsInName(cacheHome: string)
    ensures var root := ThumbnailsRoot(cacheHome);
            |root| > 0 && root[|root| - 1] == 's'
  {
  }

  /** `ThumbnailManager.__init__`: large thumbnails go to `thumbnails/large`, normal ones to
      `thumbnails/normal`, failures to `thumbnails/fail/vimiv-<version>`, all under the user's
      cache directory. */
  function NewManager(large: bool, cacheHome: string, version: string): (m: Manager)
    ensures m.large == large && m.version == version
    ensures m.directory == ThumbnailsRoot(cacheHome) + (if large then "/large" else "/normal")
    ensures m.failDirectory == ThumbnailsRoot(cacheHome) + "/fail/vimiv-" + version
  {
    RootEndsInName(cacheHome);
    var root := ThumbnailsRoot(cacheHome);
    var directory := if large then PosixPath.Join(root, "large") else PosixPath.Join(root, "normal");
    var fail := PosixPath.Join(PosixPath.Join(root, "fail"), "vimiv-" + version);
    Manager(large, directory, fail, version)
  }

  /** The two tiers and the failure markers live in three different directories. */
  lemma DirectoriesDiffer(cacheHome: string, version: string)
    ensures var large := NewManager(true, cacheHome, version);
            var normal := NewManager(false, cacheHome, version);
            && large.directory != normal.directory
            && large.directory != large.failDirectory
            && normal.directory != normal.failDirectory
  {
    var root := ThumbnailsRoot(cacheHome);
    var l := root + "/large";
    var n := root + "/normal";
    assert |l| != |n|;
    assert |root + "/fail/vimiv-" + version| > |n| > |l|;
  }

  /** The bound the source image is scaled into: 256 pixels for large thumbnails, else 128. */
  function SizeBound(large: bool): (size: int)
    ensures size == 128 || size == 256
    ensures large <==> size == 256
  {
    if large then 256 else 128
  }

  /** `_get_source_uri`: the absolute, user-expanded path as a `file://` URI. */
  function SourceUri(path: string, env: PosixPath.Env): (uri: string)
    ensures |uri| >= 7 && uri[..7] == "file://"
  {
    "file://" + PosixPath.Canonical(path, env)
  }

  /** Every URI names an absolute path: it starts with three slashes. */
  lemma SourceUriIsAbsolute(path: string, env: PosixPath.Env)
    requires PosixPath.ValidEnv(env)
    ensures |SourceUri(path, env)| >= 8 && SourceUri(path, env)[..8] == "file:///"
  {
    PosixPath.AbsPathIsAbs(PosixPath.ExpandUser(path, env), env);
  }

  /** `_get_thumbnail_filename`: the digest of the URI with a `.png` extension. */
  function ThumbnailFilename(path: string, w: World): (name: string)
    ensures |name| >= 4 && name[|name| - 4..] == ".png"
  {
    w.digest(SourceUri(path, w.env)) + ".png"
  }

  /** `_get_thumbnail_path`: the file name inside the manager's directory. */
  function ThumbnailPath(m: Manager, path: string, w: World): (location: string)
    ensures var name := ThumbnailFilename(path, w);
            |location| >= |name| && location[|location| - |name|..] == name
  {
    var name := ThumbnailFilename(path, w);
    var location := PosixPath.Join(m.directory, name);
    assert location == name || location == m.directory + name || location == m.directory + "/" + name;
    location
  }

  /** Paths with the same absolute form share one cache file; in particular a path and its
      absolute form do. */
  lemma SameFileForSameAbsolutePath(m: Manager, p: string, q: string, w: World)
    requires PosixPath.ValidEnv(w.env)
    ensures PosixPath.Canonical(p, w.env) == PosixPath.Canonical(q, w.env)
            ==> ThumbnailPath(m, p, w) == ThumbnailPath(m, q, w)
    ensures ThumbnailPath(m, PosixPath.Canonical(p, w.env), w) == ThumbnailPath(m, p, w)
  {
    PosixPath.CanonicalIdempotent(p, w.env);
  }

  /** `_get_thumbnail_attributes`: the six text fields, taken from the source's status and
      the unscaled image. */
  function Attributes(path: string, w: World, st: Stat, img: Image, version: string)
    : (attrs: map<string, string>)
    ensures attrs.Keys == {KeyUri, KeyMTime, KeySize, KeyWidth, KeyHeight, KeySoftware}
    ensures attrs[KeyMTime] == Decimal.IntToString(st.mtime)
    ensures attrs[KeySize] == Decimal.IntToString(st.size)
    ensures attrs[KeyUri] == SourceUri(path, w.env)
  {
    map[
      KeyUri := SourceUri(path, w.env),
      KeyMTime := Decimal.IntToString(st.mtime),
      KeySize := Decimal.IntToString(st.size),
      KeyWidth := Decimal.IntToString(Width(img)),
      KeyHeight := Decimal.IntToString(Height(img)),
      KeySoftware := "vimiv-" + version]
  }

  /** `QImage.text(key)`: the empty string for a missing field. */
  function TextOf(file: CacheFile, key: string): string {
    if key in file.text then file.text[key] else ""
  }

  /** The cache after a creator has run and what it returned; `None` when an exception
      (`os.path.getmtime` on a vanished source) ended it. */
  datatype Outcome = Outcome(cache: Cache, icon: Option<Icon>)

  /** `_create_thumbnail`: a source that may not be read writes nothing and gives `False`;
      one the image library cannot read writes nothing and gives the failure icon; otherwise
      the scaled image is stored with its attributes and returned. The temporary file and the
      atomic rename leave exactly the final file behind, so they appear as one map update.
      Saving a null image (a source that looked readable but did not decode) fails, and the
      rename then installs the empty temporary file, which reads back as the null image
      without text fields. */
  function Create(m: Manager, w: World, path: string, location: string, cache: Cache): (r: Outcome)
    ensures !Observe(w, path).readable ==> r == Outcome(cache, Some(NoIcon))
    ensures Observe(w, path).readable && Observe(w, path).decoded.None? ==> r == Outcome(cache, Some(FailIcon))
    ensures r.icon.None? ==> r.cache == cache
    ensures r.cache != cache ==> r.cache.Keys == cache.Keys + {location}
    ensures forall k :: k in cache && k != location ==> k in r.cache && r.cache[k] == cache[k]
    ensures var src := Observe(w, path);
            src.readable && src.decoded.Some? && src.stat.Some? ==>
              && location in r.cache
              && r.cache[location].image == w.scale(src.decoded.value, SizeBound(m.large))
              && r.icon == Some(ImageIcon(r.cache[location].image))
  {
    var src := Observe(w, path);
    if !src.readable then Outcome(cache, Some(NoIcon))
    else match src.decoded
      case None => Outcome(cache, Some(FailIcon))
      case Some(img) =>
        match src.stat
        case None => Outcome(cache, None)
        case Some(st) =>
          var attrs := Attributes(path, w, st, img, m.version);
          var thumb := w.scale(img, SizeBound(m.large));
          var stored := if thumb.NullImage? then CacheFile(NullImage, map[]) else CacheFile(thumb, attrs);
          Outcome(cache[location := stored], Some(ImageIcon(thumb)))
  }

  /** `_maybe_recreate_thumbnail`: a stored file whose `Thumb::MTime` text is the source's
      current modification time is returned as it is; any other text, a missing field
      included, rebuilds it. */
  function MaybeRecreate(m: Manager, w: World, path: string, location: string, cache: Cache): (r: Outcome)
    requires location in cache
    ensures r.icon.None? <==> Observe(w, path).stat.None?
    ensures r.cache.Keys == cache.Keys
    ensures forall k :: k in cache && k != location ==> r.cache[k] == cache[k]
    ensures Observe(w, path).stat.Some?
            && TextOf(cache[location], KeyMTime) == Decimal.IntToString(Observe(w, path).stat.value.mtime)
            ==> r == Outcome(cache, Some(ImageIcon(cache[location].image)))
  {
    match Observe(w, path).stat
    case None => Outcome(cache, None)
    case Some(st) =>
      var file := cache[location];
      if Decimal.IntToString(st.mtime) == TextOf(file, KeyMTime) then Outcome(cache, Some(ImageIcon(file.image)))
      else Create(m, w, path, location, cache)
  }

  /** A `ThumbnailCreator`: the position of its path in the batch, and the path. */
  datatype Creator = Creator(index: int, path: string)

  /** What `created` is emitted with. */
  datatype Emission = Emission(index: int, icon: Icon)

  datatype TaskResult = TaskResult(cache: Cache, emitted: Option<Emission>)

  /** `ThumbnailCreator.run`: an existing cache file is checked for staleness, a missing one is
      created; the outcome is emitted with the creator's index. */
  function Run(m: Manager, w: World, c: Creator, cache: Cache): (r: TaskResult)
    ensures var src := Observe(w, c.path);
            var location := ThumbnailPath(m, c.path, w);
            && (r.emitted.None? <==> src.stat.None? && (location in cache || (src.readable && src.decoded.Some?)))
            && (r.emitted.Some? ==> r.emitted.value.index == c.index)
            && (r.cache.Keys <= cache.Keys + {location})
            && (forall k :: k in cache && k != location ==> k in r.cache && r.cache[k] == cache[k])
  {
    var location := ThumbnailPath(m, c.path, w);
    var out := if location in cache then MaybeRecreate(m, w, c.path, location, cache)
               else Create(m, w, c.path, location, cache);
    TaskResult(out.cache, if out.icon.Some? then Some(Emission(c.index, out.icon.value)) else None)
  }

  /** A source the creator may not read never changes the cache. */
  lemma UnreadableWritesNothing(m: Manager, w: World, c: Creator, cache: Cache)
    requires !Observe(w, c.path).readable
    ensures Run(m, w, c, cache).cache == cache
  {
  }

  /** A readable source the image library cannot read never changes the cache; without a
      stored file it yields the failure icon. */
  lemma UndecodableWritesNothing(m: Manager, w: World, c: Creator, cache: Cache)
    requires Observe(w, c.path).readable && Observe(w, c.path).decoded.None?
    ensures Run(m, w, c, cache).cache == cache
    ensures ThumbnailPath(m, c.path, w) !in cache ==> Run(m, w, c, cache).emitted == Some(Emission(c.index, FailIcon))
  {
  }

  /** A successful build stores exactly one file, at the computed location, holding the scaled
      image and the six fields, with the source's modification time and size as decimal text.
      A scaled image that is null cannot be saved, and the file left there has no fields. */
  lemma BuildStoresOneFile(m: Manager, w: World, c: Creator, cache: Cache)
    requires ThumbnailPath(m, c.path, w) !in cache
    requires var src := Observe(w, c.path); src.readable && src.decoded.Some? && src.stat.Some?
    ensures var src := Observe(w, c.path);
            var location := ThumbnailPath(m, c.path, w);
            var thumb := w.scale(src.decoded.value, SizeBound(m.large));
            var r := Run(m, w, c, cache);
            && r.cache.Keys == cache.Keys + {location}
            && r.cache[location].image == thumb
            && (thumb.Picture? ==>
                  && r.cache[location].text.Keys == {KeyUri, KeyMTime, KeySize, KeyWidth, KeyHeight, KeySoftware}
                  && TextOf(r.cache[location], KeyMTime) == Decimal.IntToString(src.stat.value.mtime)
                  && TextOf(r.cache[location], KeySize) == Decimal.IntToString(src.stat.value.size))
            && (thumb.NullImage? ==> r.cache[location].text == map[])
            && r.emitted == Some(Emission(c.index, ImageIcon(thumb)))
  {
  }

  /** A stored file whose modification time matches the source's is a hit: its image is
      emitted and nothing is written. */
  lemma FreshFileIsHit(m: Manager, w: World, c: Creator, cache: Cache)
    requires ThumbnailPath(m, c.path, w) in cache
    requires Observe(w, c.path).stat.Some?
    requires TextOf(cache[ThumbnailPath(m, c.path, w)], KeyMTime)
             == Decimal.IntToString(Observe(w, c.path).stat.value.mtime)
    ensures Run(m, w, c, cache)
            == TaskResult(cache, Some(Emission(c.index, ImageIcon(cache[ThumbnailPath(m, c.path, w)].image))))
  {
  }

  /** A stored file whose `Thumb::MTime` text differs in any way from the source's current
      modification time (another time, a missing field, any other text) is rebuilt exactly as
      if it were missing. */
  lemma StaleFileIsRebuilt(m: Manager, w: World, c: Creator, cache: Cache)
    requires ThumbnailPath(m, c.path, w) in cache
    requires Observe(w, c.path).stat.Some?
    requires TextOf(cache[ThumbnailPath(m, c.path, w)], KeyMTime)
             != Decimal.IntToString(Observe(w, c.path).stat.value.mtime)
    ensures var location := ThumbnailPath(m, c.path, w);
            var src := Observe(w, c.path);
            && Run(m, w, c, cache).emitted == Run(m, w, c, cache - {location}).emitted
            && (src.readable && src.decoded.Some? ==> Run(m, w, c, cache).cache == Run(m, w, c, cache - {location}).cache)
            && (!(src.readable && src.decoded.Some?) ==> Run(m, w, c, cache).cache == cache)
  {
    var location := ThumbnailPath(m, c.path, w);
    assert location !in cache - {location};
    if Observe(w, c.path).readable && Observe(w, c.path).decoded.Some? {
      assert (cache - {location})[location := Create(m, w, c.path, location, cache).cache[location]]
             == Create(m, w, c.path, location, cache).cache;
    }
  }

  /** Asking twice is asking once: the second run of a creator, on the cache the first one
      left, emits the same and leaves the cache as it was (a null thumbnail is rebuilt into the
      same empty file). */
  lemma RunIdempotent(m: Manager, w: World, c: Creator, cache: Cache)
    ensures var first := Run(m, w, c, cache);
            Run(m, w, c, first.cache) == first
  {
    var location := ThumbnailPath(m, c.path, w);
    var src := Observe(w, c.path);
    var first := Run(m, w, c, cache);
    if src.stat.Some? && src.readable && src.decoded.Some?
       && (location !in cache || Decimal.IntToString(src.stat.value.mtime) != TextOf(cache[location], KeyMTime)) {
      var thumb := w.scale(src.decoded.value, SizeBound(m.large));
      assert location in first.cache;
      if thumb.NullImage? {
        assert TextOf(first.cache[location], KeyMTime) == "";
        assert first.cache[location := CacheFile(NullImage, map[])] == first.cache;
      } else {
        assert TextOf(first.cache[location], KeyMTime) == Decimal.IntToString(src.stat.value.mtime);
      }
    }
  }

  /** `ThumbnailsAsyncCreator.run`: one creator per path, in order, carrying the path's position. */
  method StartCreators(paths: seq<string>) returns (started: seq<Creator>)
    ensures |started| == |paths|
    ensures forall i :: 0 <= i < |paths| ==> started[i].index == i && started[i].path == paths[i]
  {
    started := [];
    for i := 0 to |paths|
      invariant |started| == i
      invariant forall j :: 0 <= j < i ==> started[j] == Creator(j, paths[j])
    {
      started := started + [Creator(i, paths[i])];
    }
  }

  /** The creators `StartCreators` produces for `paths`. */
  predicate Enumerates(creators: seq<Creator>, paths: seq<string>) {
    |creators| == |paths| && forall i :: 0 <= i < |paths| ==> creators[i] == Creator(i, paths[i])
  }

  /** One way the pool can run the creators: each completely, one after another, in `order`
      (positions in `creators`). The cache is threaded through; emissions are collected. */
  function RunSchedule(m: Manager, w: World, creators: seq<Creator>, order: seq<nat>, cache: Cache)
    : (r: (Cache, seq<Emission>))
    requires forall k :: 0 <= k < |order| ==> order[k] < |creators|
    ensures |r.1| <= |order|
    decreases |order|
  {
    if |order| == 0 then (cache, [])
    else
      var t := Run(m, w, creators[order[0]], cache);
      var rest := RunSchedule(m, w, creators, order[1..], t.cache);
      (rest.0, (if t.emitted.Some? then [t.emitted.value] else []) + rest.1)
  }

  function Indices(es: seq<Emission>): (r: seq<int>)
    ensures |r| == |es|
  {
    if |es| == 0 then [] else [es[0].index] + Indices(es[1..])
  }

  /** When every path exists, every scheduled creator emits once, in schedule order, with its
      own position. */
  lemma {:induction false} ScheduleEmitsInOrder(m: Manager, w: World, creators: seq<Creator>,
                                                paths: seq<string>, order: seq<nat>, cache: Cache)
    requires Enumerates(creators, paths)
    requires forall k :: 0 <= k < |order| ==> order[k] < |creators|
    requires forall i :: 0 <= i < |paths| ==> Observe(w, paths[i]).stat.Some?
    ensures Indices(RunSchedule(m, w, creators, order, cache).1) == order
    decreases |order|
  {
    if |order| > 0 {
      var c := creators[order[0]];
      var t := Run(m, w, c, cache);
      assert t.emitted.Some?;
      ScheduleEmitsInOrder(m, w, creators, paths, order[1..], t.cache);
      var es := RunSchedule(m, w, creators, order, cache).1;
      assert es == [t.emitted.value] + RunSchedule(m, w, creators, order[1..], t.cache).1;
      assert es[1..] == RunSchedule(m, w, creators, order[1..], t.cache).1;
      assert order == [order[0]] + order[1..];
    }
  }

  function Range(n: nat): seq<nat> {
    if n == 0 then [] else Range(n - 1) + [n - 1]
  }

  lemma {:induction false} RangeCount(n: nat, i: nat)
    ensures multiset(Range(n))[i] == if i < n then 1 else 0
    decreases n
  {
    if n > 0 {
      RangeCount(n - 1, i);
      assert Range(n) == Range(n - 1) + [n - 1];
    }
  }

  /** An arrangement of `0..n-1` holds each of them once and nothing else. */
  lemma PermutationBounds(order: seq<nat>, n: nat)
    requires multiset(order) == multiset(Range(n))
    ensures forall k :: 0 <= k < |order| ==> order[k] < n
    ensures forall i :: 0 <= i < n ==> multiset(order)[i] == 1
  {
    forall k | 0 <= k < |order|
      ensures order[k] < n
    {
      assert order[k] in multiset(order);
      RangeCount(n, order[k]);
    }
    forall i | 0 <= i < n
      ensures multiset(order)[i] == 1
    {
      RangeCount(n, i);
    }
  }

  /** Whatever order the pool picks, a batch over existing paths emits every index
      `0..|paths|-1` exactly once and nothing else. */
  lemma BatchEmitsEachIndexOnce(m: Manager, w: World, creators: seq<Creator>, paths: seq<string>,
                                order: seq<nat>, cache: Cache)
    requires Enumerates(creators, paths)
    requires multiset(order) == multiset(Range(|paths|))
    requires forall i :: 0 <= i < |paths| ==> Observe(w, paths[i]).stat.Some?
    ensures forall k :: 0 <= k < |order| ==> order[k] < |creators|
    ensures var es := Indices(RunSchedule(m, w, creators, order, cache).1);
            forall i :: 0 <= i < |paths| ==> multiset(es)[i] == 1
    ensures var es := Indices(RunSchedule(m, w, creators, order, cache).1);
            forall k :: 0 <= k < |es| ==> 0 <= es[k] < |paths|
  {
    PermutationBounds(order, |paths|);
    ScheduleEmitsInOrder(m, w, creators, paths, order, cache);
    EmittedOnce(Indices(RunSchedule(m, w, creators, order, cache).1), order, |paths|);
  }

  lemma EmittedOnce(es: seq<int>, order: seq<nat>, n: nat)
    requires es == order && multiset(order) == multiset(Range(n))
    ensures forall i :: 0 <= i < n ==> multiset(es)[i] == 1
    ensures forall k :: 0 <= k < |es| ==> 0 <= es[k] < n
  {
    PermutationBounds(order, n);
  }

  /** A batch in which no source may be read leaves the cache as it was. */
  lemma {:induction false} UnreadableBatchWritesNothing(m: Manager, w: World, creators: seq<Creator>,
                                                        order: seq<nat>, cache: Cache)
    requires forall k :: 0 <= k < |order| ==> order[k] < |creators|
    requires forall j :: 0 <= j < |creators| ==> !Observe(w, creators[j].path).readable
    ensures RunSchedule(m, w, creators, order, cache).0 == cache
    decreases |order|
  {
    if |order| > 0 {
      UnreadableWritesNothing(m, w, creators[order[0]], cache);
      UnreadableBatchWritesNothing(m, w, creators, order[1..], cache);
    }
  }

  /** The cache locations of a batch's paths. */
  ghost predicate IsLocationOf(m: Manager, w: World, creators: seq<Creator>, k: string) {
    exists j :: 0 <= j < |creators| && k == ThumbnailPath(m, creators[j].path, w)
  }

  /** A batch touches nothing but its own paths' cache files. */
  lemma {:induction false} BatchWritesOnlyItsFiles(m: Manager, w: World, creators: seq<Creator>,
                                                   order: seq<nat>, cache: Cache)
    requires forall k :: 0 <= k < |order| ==> order[k] < |creators|
    ensures var after := RunSchedule(m, w, creators, order, cache).0;
            forall k :: !IsLocationOf(m, w, creators, k) ==>
              (k in after <==> k in cache) && (k in cache ==> after[k] == cache[k])
    decreases |order|
  {
    if |order| > 0 {
      var c := creators[order[0]];
      var t := Run(m, w, c, cache);
      BatchWritesOnlyItsFiles(m, w, creators, order[1..], t.cache);
      assert IsLocationOf(m, w, creators, ThumbnailPath(m, creators[order[0]].path, w));
    }
  }
}

=== FILE: wrappers.dfy ===
/** Option and Result datatypes shared by the modules. */
module Wrappers {

  /** A value that may be absent. */
  datatype Option<+T> = None | Some(value: T)

  /** The result of an operation that either succeeds or raises a Python exception. */
  datatype Result<+T, +E> = Success(value: T) | Failure(error: E)
}
